=== FILE: README.md ===
# Board service core, modelled in Dafny

This project models the collaborative-board part of the Brainiacs back end
(`index.js`). A board is a document in a board store. It holds a member list,
an ordered message log and a list of polls. The HTTP routes change one board
at a time:

- append, edit, soft-delete, mark-seen, react, pin and unpin a message;
- create, list (sweeping expired polls inactive), vote on and remove a poll;
- create, update the members of, read and delete a board.

The profile route derives a reward summary (points, current and next badge,
progress) from the task and badge collections; it is modelled too.

Each route that changes data is a pure function from the store (a map from
canonical board id to board) and its request parameters to `Result<Store>`.
The board read (`Boards.ReadBoard`) changes nothing and returns
`Result<BoardView>`: the board together with its joined members, unseen
count, last message, polls and valid pins. The error cases are distinguished
as follows:

| error | HTTP status | meaning |
|---|---|---|
| `InvalidArgument` | 400 | bad argument |
| `NotFound` | 404 | not found |
| `RateLimited` | 400 | one poll per day |
| `AlreadyVoted` | 400 | already voted |
| `Internal` | 500 | the handler throws |

The clock, fresh object ids and the user store are parameters. Both
collections are keyed by the printed (lower-case) text of each id; the user
collection's type states this.

Module layout:

- `base.dfy`: `Option`/`Result`, object-id validity and canonical form, and the
  array operators `$addToSet` and `$pull`.
- `messages.dfy`: the message log, the positional update `messages.$` (first
  match only), append, edit and soft delete.
- `seen.dfy`: mark seen and the per-viewer unseen count.
- `reactions.dfy`: the reaction toggle.
- `pins.dfy`: pin, unpin and the valid-pin filter.
- `polls.dfy`: poll create with its 24-hour rate limit, the expiry sweep, vote
  and remove.
- `boards.dfy`: board create, member update, delete and the composed board read.
- `routes.dfy`: each route with its validation order and its effect on the store.
- `workflows.dfy`: properties that relate several routes.
- `scenario.dfy`: one message's life as a verified method. It is appended
  as "hello", edited to "hello world", reacted to with "like" and un-reacted
  by the same user, pinned for two days, and marked seen by a viewer; the
  method states the resulting message, pin list and unseen count.
- `rewards.dfy`: the reward summary.

Ids are modelled as follows:

- Ids are strings. A well-formed id is 24 hexadecimal digits.
- A store filter `new ObjectId(param)` compares canonical (lower-case) text.
- A comparison `x._id.toString() === param` compares against the raw
  parameter. The react and vote routes use this comparison, and so does the
  member join of a board read.

Behaviours of the code a reader might not expect, all modelled as written:

- **Vote-once is per option, not per poll.** The vote route checks only the
  chosen option's voter list (`Polls.VoteForAnotherOptionAccepted`).
- **Poll options are stored as sent.** Nothing seeds an empty `votes` array.
  Voting on an option without one throws (`Internal`).
- **Absent lists throw in some routes.** A new board has no `messages` and no
  `polls` field. Listing polls, voting and reacting on such a board throw
  (`Internal`). A board read, poll creation and poll removal treat the absent
  list as empty.
- **The poll rate limit is answered with status 400,** not 409.
- **The default visibility is `"Public"`,** with an upper-case P.
- **A repeated soft delete overwrites** the earlier deleter and time: the last
  call wins.
- **Un-reacting leaves an empty list** under the reaction kind. It does not
  remove the key.
- **The poll list answers every poll,** inactive ones included, after the sweep.
- **An update without `members` writes null** to the member list. A later
  board read then throws (`Boards.UpdateWithoutMembersBreaksRead`).
- **A `null` pin duration pins with an expiry of the current instant,**
  because `getDate() + null` adds nothing; such a pin is never listed
  (`Pins.NullDurationPinNeverListed`). A missing duration, or one that moves
  the expiry outside the JavaScript date range, makes the route throw.
- **A member id stored with upper-case hex digits joins no user** in a board
  read (`Boards.NonCanonicalMemberJoinsNoUser`), because the join compares
  printed ids as text.

## Model

| member | source | states |
|---|---|---|
| Base.AddToSet | index.js:466-469 | `$addToSet`: the old sequence is a prefix of the result; when x is present nothing is added, otherwise exactly x is appended; no duplicates are introduced |
| Base.Without | index.js:513-518 | `$pull`: the result holds exactly the elements other than x; nothing changes when x is absent; no duplicates are introduced |
| Base.WithoutConcat | index.js:519 | pulling from a concatenation is pulling from each part and concatenating, so the survivors keep their order |
| Base.WithoutSingle | index.js:519 | a single element survives the pull exactly when it is not the pulled value |
| Base.PullUndoesAddToSet | index.js:513-527 | on a list without x, `$pull` of x after `$addToSet` of x gives back the original list |
| Messages.FirstIndex | index.js:396-399 | the positional match `messages.$` selects the first message whose id is the object id; absent exactly when no message matches |
| Messages.UpdateFirst | index.js:396-399 | a positional update changes only the first matching message, to the update applied to it; it keeps the ids whenever the update keeps a message's id; it reports not found when none matches |
| Messages.Append | index.js:349-373 | rejects an invalid sender id or empty text; otherwise appends exactly one message at the end: fresh id, sender, text, timestamp, sender name defaulting to "Unknown User", attachments defaulting to [], no reactions, pin, deletion or viewers |
| Messages.AppendKeepsIdsUnique | index.js:362-373 | appending under a fresh object id keeps the message ids pairwise distinct |
| Messages.Edit | index.js:396-403 | not found iff no message matches; otherwise ids are kept and only the first match's text changes, to the sent value (null when absent) |
| Messages.EditLastWins | index.js:396-399 | editing twice equals editing once with the second text: the first edit leaves no trace |
| Messages.SoftDelete | index.js:426-438 | not found iff no message matches; otherwise the message stays in place with text null and the sent deleter and time; nothing else changes |
| Messages.SoftDeleteLastWins | index.js:426-435 | deleting twice equals deleting once with the second call's deleter and time |
| Messages.SoftDeleteIdempotent | index.js:426-435 | repeating the same delete changes nothing further |
| Seen.MarkSeen | index.js:466-473 | not found iff no message matches; otherwise the viewer is in the first match's viewers, which keeps its earlier members and gains no duplicates; nothing else changes |
| Seen.MarkSeenIdempotent | index.js:466-469 | marking the same message seen twice by the same user equals marking it once |
| Seen.UnseenCount | index.js:226-228 | the count of messages whose viewers lack the user is at most the log length; it is 0 iff every message was seen and equal to the length iff none was |
| Seen.UnseenPositionsOfLast | index.js:226-228 | the unseen positions of a log are those of the log without its last message, plus the last position when that message is unseen |
| Seen.UnseenCountIsCardinality | index.js:226-228 | the unseen count is the number of positions whose message the user has not seen |
| Seen.UnseenCountAfterUpdate | index.js:226-228 | changing one message changes the unseen count by the change in that message's seen status only |
| Seen.MarkSeenUnseenCount | index.js:466-469 | marking a message seen lowers the viewer's unseen count by one if it was unseen, and leaves other users' counts unchanged |
| Seen.MarkEverySeen | index.js:466-469 | marking each message of a log with unique ids seen, one after another, leaves the user with no unseen message and changes only the viewer lists |
| Reactions.Toggle | index.js:513-527 | the user's membership under the kind flips; other users under that kind, other kinds and every other field are unchanged; no duplicates are introduced |
| Reactions.ToggleTwiceRestoresMembership | index.js:513-527 | toggling twice restores whether the user reacted with that kind |
| Reactions.ToggleInAndOutIsIdentity | index.js:513-527 | reacting then un-reacting restores the reactor list of that kind exactly, when the user was not in it |
| Reactions.React | index.js:501-527 | not found when no message prints as the raw id; otherwise an empty kind or a name inherited from `Object.prototype` throws; any other kind toggles the reaction on the first positional match and only that message changes |
| Reactions.InheritedKindThrows | index.js:513 | reacting with "toString" to an existing message fails with a thrown error |
| Pins.ValidPins | index.js:206-208 | the board read's pin filter keeps exactly the messages with a truthy pinner and an expiry after now |
| Pins.ValidPinsConcat | index.js:206-208 | filtering a concatenation is filtering each part and concatenating, so valid pins keep their order and multiplicity |
| Pins.ValidPinsSingle | index.js:206-208 | a single message is kept exactly when its pin is valid |
| Pins.Expiry | index.js:550-551 | a missing duration gives no valid expiry; null gives the current instant; a number of days gives now plus that many days; any result outside the date range of ±8.64e15 ms is no valid expiry |
| Pins.Pin | index.js:550-565 | no valid expiry throws before lookup; otherwise not found iff no match, else the first match gets the pinner and that expiry; nothing else changes |
| Pins.Unpin | index.js:590-599 | not found iff no match; otherwise both pin fields of the first match are removed and nothing else changes |
| Pins.PinnedMessageIsListed | index.js:550-560 | a message just pinned by a named user for a positive number of days is among the valid pins at the pinning instant |
| Pins.PinnedMessageExpires | index.js:206-208 | a pinned message is no longer a valid pin at or after its expiry |
| Pins.NullDurationPinNeverListed | index.js:550-560 | a pin with a null duration records the pinner but is not a valid pin at the pinning instant or later |
| Pins.UnpinUnlistsAndIsIdempotent | index.js:590-599 | after an unpin the message is not a valid pin, and a second unpin changes nothing |
| Polls.Create | index.js:731-753 | rate-limited iff the same creator has a poll created within the last 24 hours; otherwise appends one active poll with the sent question and options, created now and expiring 24 hours later |
| Polls.CreateRateLimitWindow | index.js:731-739 | after a successful create, a second create by the same user succeeds iff it happens at least 24 hours later |
| Polls.Sweep | index.js:782-787 | every poll whose expiry is at or before now becomes inactive; the others are unchanged; order and length are kept |
| Polls.SweepIdempotent | index.js:782-787 | sweeping twice at the same instant equals sweeping once |
| Polls.SweepLaterSubsumes | index.js:782-787 | a sweep at a later instant after one at an earlier instant equals the later sweep alone |
| Polls.FindPoll | index.js:816 | the first poll whose printed id is the key; absent exactly when none matches |
| Polls.Vote | index.js:816-825 | not found when no poll matches; throws when the option or its votes are missing; already voted iff the user is in that option's votes; otherwise the user is appended there and nothing else changes |
| Polls.VoteTwiceRefused | index.js:821-823 | a second vote by the same user for the same option is refused |
| Polls.VoteForAnotherOptionAccepted | index.js:821-825 | a user who voted for one option can vote for another option of the same poll and is then listed under both |
| Polls.Remaining | index.js:849 | `$pull` by id keeps exactly the polls that do not match; the result is shorter when some poll matches, and equal to the input when none does |
| Polls.RemainingCounts | index.js:849 | each non-matching poll survives the pull as many times as it occurred, and no matching poll survives |
| Polls.RemainingConcat | index.js:849 | pulling from a concatenation is pulling from each part and concatenating, so survivors keep their order |
| Polls.RemainingSingle | index.js:849 | a single poll is kept exactly when it does not match |
| Polls.Remove | index.js:847-853 | not found iff no poll matches; otherwise the result is the pulled list: no poll matches, the non-matching polls keep their multiplicities and (through the lemmas above) their order |
| Polls.RemoveUndoesCreate | index.js:741-753 | removing a poll just created under a fresh id restores the poll list |
| Polls.RemainingAfterAppend | index.js:849 | pulling by id from a list whose only matching poll is the last one gives the list without it |
| Boards.CreateBoard | index.js:255-291 | rejects a falsy name or an invalid creator id; not found when the creator is not a user; otherwise adds one board with the defaults "", "Public" and "#3b82f6", the creator as sole admin member, and no messages or polls; other boards are unchanged |
| Boards.UpdateMembers | index.js:303-332 | rejects an invalid board id or a sent list with an entry lacking a valid user id; not found iff no board; otherwise only that board's member list is replaced (null when unsent) |
| Boards.UpdateMembersThenRead | index.js:215-223 | after a member list is sent, a board read succeeds and joins exactly the sent entries, in order |
| Boards.UpdateWithoutMembersBreaksRead | index.js:211-213 | after an update that sent no member list, every board read throws |
| Boards.DeleteBoard | index.js:612-620 | rejects an invalid id; not found iff no board; otherwise exactly that board is removed |
| Boards.Populate | index.js:215-223 | a member joins with the user whose printed id equals its user id; missing name or email becomes "Unknown", a missing role "member" |
| Boards.NonCanonicalMemberJoinsNoUser | index.js:216 | a member whose user id is not written as ids print joins no user and shows "Unknown" name and email |
| Boards.ReadBoard | index.js:186-243 | rejects an invalid id; not found without a board; throws iff members are absent or hold an ill-formed id; otherwise returns the board, the joined members, the viewer's unseen count, the last message, the polls (none when absent) and the valid pins, in log order |
| Boards.CreatedBoardReadsBack | index.js:274-289 | a board just created reads back with its creator as the one admin member, no unseen messages, no last message, no polls and no pins |
| Routes.AppendMessage | index.js:341-378 | validation of board id, sender and text comes before the board lookup; on success only that board's log changes, by the append |
| Routes.EditMessage | index.js:387-403 | invalid ids are rejected; not found iff board or message is missing; otherwise only that board's log changes, by the edit |
| Routes.DeleteMessage | index.js:417-439 | invalid ids are rejected; not found iff board or message is missing; otherwise only that board's log changes, by the soft delete |
| Routes.MarkSeen | index.js:453-473 | invalid ids or an invalid viewer id are rejected; not found iff board or message is missing; otherwise only that board's log changes |
| Routes.React | index.js:487-527 | invalid ids are rejected; not found without the board; a board without messages throws; not found when no message prints as the raw id; an empty or inherited kind then throws; otherwise only that message's reactions toggle |
| Routes.PinMessage | index.js:541-565 | invalid ids are rejected; a duration without a valid expiry throws; not found iff board or message is missing; otherwise only that board's log changes, by the pin |
| Routes.UnpinMessage | index.js:582-599 | invalid ids are rejected; not found iff board or message is missing; otherwise only that board's log changes, by the unpin |
| Routes.CreatePoll | index.js:716-758 | rejects an invalid board id; not found without the board; rate-limited as the poll create is; otherwise only that board's poll list grows |
| Routes.ListPolls | index.js:767-793 | rejects an invalid id; not found without the board; throws iff the board has no poll list; otherwise the swept list is written back |
| Routes.Vote | index.js:802-830 | rejects invalid ids; not found without the board; throws without a poll list; otherwise the poll vote's outcome, written back to that board only |
| Routes.RemovePoll | index.js:839-854 | rejects invalid ids; not found iff the board is missing or holds no matching poll; otherwise only that board's poll list shrinks, by the removal |
| Workflows.AppendThenRead | index.js:226-231 | after an append, a board read shows the new message as the last one and the viewer's unseen count is one higher |
| Workflows.PinThenRead | index.js:206-208 | after a pin, a board read at the pin instant lists the message among the pins; one at or after its expiry does not |
| Workflows.ListPollsIdempotent | index.js:782-793 | listing the polls twice at the same instant stores the same as listing once |
| Workflows.CreatePollThenRemove | index.js:847-853 | creating then removing a poll under a fresh id leaves the board's polls as they were |
| Scenario.EndToEnd | index.js:362-469 | append, edit, react, un-react, pin for two days and mark seen leave one message with the edited text, an empty reactor list, the pin, the viewer, one valid pin and no unseen message |
| Rewards.CompletedCount | index.js:47-48 | the number of tasks in the "done" column is the multiplicity of "done" among the column titles |
| Rewards.Split | index.js:51-52 | the unlocked (locked) list holds exactly the badges whose requirement the points meet (do not meet) |
| Rewards.SplitPartitions | index.js:51-52 | unlocked and locked badges partition the badge list |
| Rewards.LastUnlockedIndex | index.js:54 | the last unlocked badge stands at an unlocked position with only locked badges after it |
| Rewards.FirstLockedIndex | index.js:55 | the first locked badge stands at a locked position with only unlocked badges before it |
| Rewards.CurrentBadge | index.js:54 | absent iff no badge is unlocked; otherwise the last unlocked badge in stored order |
| Rewards.NextBadge | index.js:55 | absent iff every badge is unlocked; otherwise the first locked badge in stored order |
| Rewards.Progress | index.js:57-59 | 100 when there is no next badge; otherwise between 0 and 99 |
| Rewards.Derive | index.js:47-68 | ten points per completed task, the current and next badge as above, the progress bounds, and the badge list returned unchanged |

## Left out

- Express routing, CORS, environment configuration and the MongoDB client are left out. Storage is the returned store, and the response bodies that echo the changed message or poll are not modelled.
- Object id generation is left out: fresh ids are parameters. `ObjectId.isValid` is modelled as 24 hexadecimal digits; the 12-character strings and the other forms it also accepts are not modelled.
- Dates are left out. Timestamps are integer milliseconds rather than ISO strings, and a day is a fixed 86,400,000 ms. `setDate` works in local time, so the daylight-saving shift is not modelled. The date range limit of ±8.64e15 ms is modelled for the pin expiry only, the one place where a request value moves a date.
- Type coercions of request values are left out. A text `pinDuration`, non-array attachments and non-string ids are not modelled.
- A missing `createdBy` or `userId` in a poll request is not modelled. It is stored as `null`, and since `null === undefined` is false, a repeat request without the field escapes both the one-poll-per-day check and the vote-once check.
- Reactions.React: a kind containing a dot or starting with `$` is not modelled, because the store would read it as a nested path or an operator. A stored reactions object that already owns a key with an inherited name is not distinguished either; no route can create one.
- Pins.Expiry: the duration is modelled as a whole number of days. JSON numbers are doubles; `setDate` truncates `getDate() + pinDuration`, so a fractional duration such as 0.5 or 1.9 moves the expiry by a truncated number of days that depends on the day of the month. The same holds for Pins.Pin and Routes.PinMessage, which use it.
- Polls.Vote: the option index is modelled as an integer. A fractional `optionIndex` reads no option and throws, which would answer Internal; this is not modelled, in Polls.Vote or in Routes.Vote.
- A member entry without `userId` on a board read is treated as ill-formed. The driver would convert it to a fresh id instead.
- Read-modify-write races between concurrent requests are left out, because the model runs one request at a time.
- The user routes, board listing, user search, columns, tasks and their reordering are left out, because they are outside the board core.
- Logging is left out, and so are store failures, which the routes answer with status 500.
- Rewards.Progress: states only the bounds (0 to 99, or 100), not the value. It computes the exact floor of 100·points/required, and the source's double-precision `Math.floor((points / required) * 100)` can come out one lower.
- Rewards.Derive: the same bound-only statement of the progress applies. Badges without a `pointsRequired` value are not modelled, because the comparisons with `undefined` put such a badge in neither list.

=== FILE: base.dfy ===
/** Shared vocabulary of the board service model: optional values, the error
    kinds the routes answer with, object identifiers, time, and the two array
    update operators of the document store ($addToSet and $pull) that the
    routes rely on. */
module Base {

  /** A value that may be absent (a missing field, `null` or `undefined`). */
  datatype Option<T> = None | Some(value: T) {
    function GetOr(default: T): T {
      if Some? then value else default
    }
  }

  /** What a route answers instead of a result. HTTP status codes are not
      modelled: InvalidArgument stands for every 400 caused by a malformed
      identifier or a missing field, NotFound for every 404, RateLimited and
      AlreadyVoted for the two 400s of the poll rules, and Internal for a 500,
      i.e. an exception thrown inside the route body. */
  datatype Error = InvalidArgument | NotFound | RateLimited | AlreadyVoted | Internal

  datatype Result<T> = Ok(value: T) | Err(error: Error)

  /** Timestamps are milliseconds since the epoch. */
  type Millis = int

  /** One day, as the poll window computes it (24 * 60 * 60 * 1000). */
  const DayMs: int := 24 * 60 * 60 * 1000

  /** JavaScript truthiness of an optional string: absent and "" are falsy. */
  predicate Truthy(o: Option<string>) {
    o.Some? && o.value != ""
  }

  /** JavaScript's `o || d`. */
  function OrDefault(o: Option<string>, d: string): string {
    if Truthy(o) then o.value else d
  }

  predicate IsHexDigit(c: char) {
    '0' <= c <= '9' || 'a' <= c <= 'f' || 'A' <= c <= 'F'
  }

  /** Well-formedness of an object identifier given as text: 24 hexadecimal
      digits, either case. */
  predicate IsValidId(s: string) {
    |s| == 24 && forall i :: 0 <= i < |s| ==> IsHexDigit(s[i])
  }

  function Lower(c: char): char {
    if 'A' <= c <= 'Z' then (c as int + 32) as char else c
  }

  /** The text an object identifier prints as (lower-case hex). Two identifiers
      are the same object identifier exactly when their canonical forms agree. */
  function Canonical(s: string): (r: string)
    ensures |r| == |s|
  {
    seq(|s|, i requires 0 <= i < |s| => Lower(s[i]))
  }

  /** Printing an identifier that already prints canonically changes nothing. */
  lemma CanonicalIdempotent(s: string)
    ensures Canonical(Canonical(s)) == Canonical(s)
  {
    var c := Canonical(s);
    assert forall i :: 0 <= i < |s| ==> Canonical(c)[i] == c[i];
  }

  predicate NoDups<T(==)>(s: seq<T>) {
    forall i, j :: 0 <= i < j < |s| ==> s[i] != s[j]
  }

  /** The store's `$addToSet` on an array: append x unless it is already there. */
  function AddToSet(s: seq<string>, x: string): (r: seq<string>)
    ensures forall y :: y in r <==> y in s || y == x
    ensures |s| <= |r| <= |s| + 1 && r[..|s|] == s
    ensures x in s ==> |r| == |s|
    ensures x !in s ==> |r| == |s| + 1 && r[|s|] == x
    ensures NoDups(s) ==> NoDups(r)
  {
    if x in s then s else s + [x]
  }

  /** The store's `$pull` of a value from an array: every occurrence of x goes,
      everything else keeps its order. */
  function Without(s: seq<string>, x: string): (r: seq<string>)
    ensures forall y :: y in r <==> y in s && y != x
    ensures |r| <= |s|
    ensures x !in s ==> r == s
    ensures NoDups(s) ==> NoDups(r)
  {
    if |s| == 0 then []
    else if s[0] == x then Without(s[1..], x)
    else
      var rest := Without(s[1..], x);
      assert NoDups(s) ==> NoDups(s[1..]) && s[0] !in s[1..];
      [s[0]] + rest
  }

  /** `$pull` works element by element: pulling from a concatenation is
      pulling from each part and concatenating, so the survivors keep their
      order. With the single-element cases below this determines `Without`
      completely. */
  lemma {:induction false} WithoutConcat(a: seq<string>, b: seq<string>, x: string)
    ensures Without(a + b, x) == Without(a, x) + Without(b, x)
  {
    if |a| > 0 {
      var ab := a + b;
      assert ab[0] == a[0] && ab[1..] == a[1..] + b;
      WithoutConcat(a[1..], b, x);
    } else {
      assert a + b == b;
    }
  }

  /** A single element is kept exactly when it is not the pulled value. */
  lemma WithoutSingle(y: string, x: string)
    ensures Without([y], x) == if y == x then [] else [y]
  {
    assert [y][1..] == [];
  }

  /** Adding a value and pulling it again leaves an array without that value
      exactly as it was. */
  lemma {:induction false} PullUndoesAddToSet(s: seq<string>, x: string)
    requires x !in s
    ensures Without(AddToSet(s, x), x) == s
  {
    if |s| == 0 {
    } else {
      assert AddToSet(s, x)[1..] == AddToSet(s[1..], x);
      PullUndoesAddToSet(s[1..], x);
    }
  }
}

=== FILE: boards.dfy ===
/** Boards and the board store: creating a board, replacing its member list,
    deleting it, and the composed read a client gets for one board. */
module Boards {
  import opened Base
  import opened Messages
  import opened Polls
  import Seen
  import Pins

  /** A member entry as stored; name and email are a snapshot that a board
      read replaces with the user store's current values. */
  datatype Member = Member(userId: string, name: Option<string>, email: Option<string>, role: Option<string>)

  /** A board document. `messages` and `polls` are absent until the first
      message or poll is pushed; `members` is absent after an update that did
      not send a member list. */
  datatype Board = Board(
    name: string,
    description: string,
    visibility: string,
    theme: string,
    createdBy: string,
    members: Option<seq<Member>>,
    createdAt: Millis,
    messages: Option<seq<Message>>,
    polls: Option<seq<Poll>>)

  /** The board collection, keyed by the canonical text of each board's id. */
  type Store = map<string, Board>

  /** A user as the board routes read it. */
  datatype User = User(name: Option<string>, email: Option<string>)

  /** Every key is the canonical text of an identifier, i.e. what the
      identifier prints as. */
  predicate CanonicalKeys<V>(m: map<string, V>) {
    forall k :: k in m ==> Canonical(k) == k
  }

  /** The user collection, keyed by the printed (canonical) text of each
      user's id, so that looking up a raw text finds a user exactly when that
      user's id prints as that text. */
  type Users = u: map<string, User> | CanonicalKeys(u) witness map[]

  const DefaultVisibility := "Public"
  const DefaultTheme := "#3b82f6"
  const AdminRole := "admin"
  const MemberRole := "member"
  const UnknownName := "Unknown"

  function MessagesOf(b: Board): seq<Message> {
    b.messages.GetOr([])
  }

  function PollsOf(b: Board): seq<Poll> {
    b.polls.GetOr([])
  }

  /** s' differs from s at most in the board stored under k. */
  predicate OnlyBoardChanged(s: Store, s': Store, k: string) {
    k in s && s'.Keys == s.Keys && forall k' :: k' in s && k' != k ==> s'[k'] == s[k']
  }

  /** Create a board owned by an existing user, who becomes its only member,
      as admin. Unset description, visibility and theme take their defaults;
      the new board has neither messages nor polls. Inserting under an id that
      is already taken fails in the store. */
  function CreateBoard(s: Store, users: Users, name: Option<string>, description: Option<string>,
                       visibility: Option<string>, theme: Option<string>, createdBy: string,
                       freshId: string, now: Millis): (r: Result<Store>)
    ensures !Truthy(name) || !IsValidId(createdBy) ==> r == Err(InvalidArgument)
    ensures Truthy(name) && IsValidId(createdBy) && Canonical(createdBy) !in users ==> r == Err(NotFound)
    ensures r.Ok? ==> Canonical(freshId) !in s
    ensures r.Err? ==> r.error == InvalidArgument || r.error == NotFound || r.error == Internal
    ensures Truthy(name) && IsValidId(createdBy) && Canonical(createdBy) in users ==>
      (r.Ok? <==> Canonical(freshId) !in s)
    ensures r.Ok? ==> var k := Canonical(freshId);
      && r.value.Keys == s.Keys + {k}
      && (forall k' :: k' in s ==> r.value[k'] == s[k'])
      && var b := r.value[k];
      && b.name == name.value && b.createdBy == createdBy && b.createdAt == now
      && b.description == OrDefault(description, "")
      && b.visibility == OrDefault(visibility, DefaultVisibility)
      && b.theme == OrDefault(theme, DefaultTheme)
      && b.members == Some([Member(createdBy, users[Canonical(createdBy)].name,
                                   users[Canonical(createdBy)].email, Some(AdminRole))])
      && b.messages.None? && b.polls.None?
  {
    if !Truthy(name) || !IsValidId(createdBy) then Err(InvalidArgument)
    else if Canonical(createdBy) !in users then Err(NotFound)
    else if Canonical(freshId) in s then Err(Internal)
    else
      var creator := users[Canonical(createdBy)];
      var board := Board(name.value, OrDefault(description, ""), OrDefault(visibility, DefaultVisibility),
                         OrDefault(theme, DefaultTheme), createdBy,
                         Some([Member(createdBy, creator.name, creator.email, Some(AdminRole))]),
                         now, None, None);
      Ok(s[Canonical(freshId) := board])
  }

  /** Every member entry names a well-formed user id. */
  predicate MembersValid(members: seq<Member>) {
    forall i :: 0 <= i < |members| ==> IsValidId(members[i].userId)
  }

  /** Replace the member list. A sent list is rejected when any entry lacks a
      well-formed user id; an unsent list overwrites the stored one with null. */
  function UpdateMembers(s: Store, boardId: string, members: Option<seq<Member>>): (r: Result<Store>)
    ensures !IsValidId(boardId) ==> r == Err(InvalidArgument)
    ensures IsValidId(boardId) && members.Some? && !MembersValid(members.value) ==> r == Err(InvalidArgument)
    ensures IsValidId(boardId) && (members.None? || MembersValid(members.value)) ==>
      (r.Err? <==> Canonical(boardId) !in s)
    ensures r.Err? ==> r.error == InvalidArgument || r.error == NotFound
    ensures r.Ok? ==> var k := Canonical(boardId);
      && OnlyBoardChanged(s, r.value, k)
      && r.value[k].members == members
      && r.value[k].(members := s[k].members) == s[k]
      && (members.Some? ==> MembersValid(members.value))
  {
    if !IsValidId(boardId) then Err(InvalidArgument)
    else if members.Some? && !MembersValid(members.value) then Err(InvalidArgument)
    else if Canonical(boardId) !in s then Err(NotFound)
    else
      var k := Canonical(boardId);
      Ok(s[k := s[k].(members := members)])
  }

  /** Delete a board and everything nested in it. */
  function DeleteBoard(s: Store, boardId: string): (r: Result<Store>)
    ensures !IsValidId(boardId) ==> r == Err(InvalidArgument)
    ensures IsValidId(boardId) ==> (r.Err? <==> Canonical(boardId) !in s)
    ensures r.Err? ==> r.error == InvalidArgument || r.error == NotFound
    ensures r.Ok? ==> && r.value.Keys == s.Keys - {Canonical(boardId)}
                      && forall k :: k in r.value ==> r.value[k] == s[k]
  {
    if !IsValidId(boardId) then Err(InvalidArgument)
    else if Canonical(boardId) !in s then Err(NotFound)
    else Ok(s - {Canonical(boardId)})
  }

  /** A member entry as a board read returns it. */
  datatype MemberView = MemberView(userId: string, name: string, email: string, role: string)

  /** What a board read returns besides the board itself. */
  datatype BoardView = BoardView(
    board: Board,
    members: seq<MemberView>,
    unseenCount: nat,
    lastMessage: Option<Message>,
    polls: seq<Poll>,
    pinnedMessages: seq<Message>)

  /** Join one member entry with the user store. The join compares each
      user's printed id with the member's user id as stored, so only an exact
      match counts. Missing or empty values become "Unknown", a missing role
      becomes "member". */
  function Populate(m: Member, users: Users): (v: MemberView)
    ensures v.userId == m.userId
    ensures v.role == (if Truthy(m.role) then m.role.value else MemberRole)
    ensures v.name == (if m.userId in users && Truthy(users[m.userId].name)
                       then users[m.userId].name.value else UnknownName)
    ensures v.email == (if m.userId in users && Truthy(users[m.userId].email)
                        then users[m.userId].email.value else UnknownName)
  {
    var u := if m.userId in users then users[m.userId] else User(None, None);
    MemberView(m.userId, OrDefault(u.name, UnknownName), OrDefault(u.email, UnknownName), OrDefault(m.role, MemberRole))
  }

  /** The join compares the printed user id with the stored text, so a member
      whose user id is stored with upper-case digits joins no user and shows
      "Unknown" for both name and email. */
  lemma NonCanonicalMemberJoinsNoUser(m: Member, users: Users)
    requires Canonical(m.userId) != m.userId
    ensures Populate(m, users).name == UnknownName && Populate(m, users).email == UnknownName
  {
  }

  /** Read one board for a viewer at `now`: member entries joined with the
      user store, the viewer's unseen count, the last message, the polls (none
      when absent) and the pins still valid at `now`. The member join converts
      every member's user id to an object id, which throws on a missing member
      list or an ill-formed id. */
  function ReadBoard(s: Store, users: Users, boardId: string, viewer: string, now: Millis): (r: Result<BoardView>)
    ensures !IsValidId(boardId) ==> r == Err(InvalidArgument)
    ensures IsValidId(boardId) && Canonical(boardId) !in s ==> r == Err(NotFound)
    ensures IsValidId(boardId) && Canonical(boardId) in s ==> var b := s[Canonical(boardId)];
      (r.Err? <==> b.members.None? || !MembersValid(b.members.value))
    ensures r.Err? ==> r.error == InvalidArgument || r.error == NotFound || r.error == Internal
    ensures r.Ok? ==> var b := s[Canonical(boardId)]; var log := MessagesOf(b);
      && r.value.board == b
      && |r.value.members| == |b.members.value|
      && (forall i :: 0 <= i < |b.members.value| ==> r.value.members[i] == Populate(b.members.value[i], users))
      && r.value.unseenCount == Seen.UnseenCount(log, viewer)
      && (|log| == 0 ==> r.value.lastMessage.None?)
      && (|log| > 0 ==> r.value.lastMessage == Some(log[|log| - 1]))
      && r.value.polls == PollsOf(b)
      && (forall m :: m in r.value.pinnedMessages <==> m in log && Pins.IsValidPin(m, now))
      && r.value.pinnedMessages == Pins.ValidPins(log, now)
  {
    if !IsValidId(boardId) then Err(InvalidArgument)
    else if Canonical(boardId) !in s then Err(NotFound)
    else
      var b := s[Canonical(boardId)];
      if b.members.None? || !MembersValid(b.members.value) then Err(Internal)
      else
        var ms := b.members.value;
        var log := MessagesOf(b);
        var views := seq(|ms|, i requires 0 <= i < |ms| => Populate(ms[i], users));
        var last := if |log| == 0 then None else Some(log[|log| - 1]);
        Ok(BoardView(b, views, Seen.UnseenCount(log, viewer), last, PollsOf(b), Pins.ValidPins(log, now)))
  }

  /** After a member list is sent, a board read joins exactly the sent
      entries, in order. */
  lemma UpdateMembersThenRead(s: Store, users: Users, boardId: string, members: seq<Member>,
                              viewer: string, now: Millis)
    requires UpdateMembers(s, boardId, Some(members)).Ok?
    ensures var r := ReadBoard(UpdateMembers(s, boardId, Some(members)).value, users, boardId, viewer, now);
      && r.Ok?
      && |r.value.members| == |members|
      && forall i :: 0 <= i < |members| ==> r.value.members[i] == Populate(members[i], users)
  {
  }

  /** After an update that sent no member list, the member list is null and
      every later board read throws. */
  lemma UpdateWithoutMembersBreaksRead(s: Store, users: Users, boardId: string, viewer: string, now: Millis)
    requires UpdateMembers(s, boardId, None).Ok?
    ensures ReadBoard(UpdateMembers(s, boardId, None).value, users, boardId, viewer, now) == Err(Internal)
  {
  }

  /** A board just created can be read back: its creator is its one admin
      member, and it has no messages, no unseen messages, no polls and no pins. */
  lemma CreatedBoardReadsBack(s: Store, users: Users, name: Option<string>, description: Option<string>,
                              visibility: Option<string>, theme: Option<string>, createdBy: string,
                              freshId: string, now: Millis, viewer: string, later: Millis)
    requires IsValidId(freshId)
    requires CreateBoard(s, users, name, description, visibility, theme, createdBy, freshId, now).Ok?
    ensures var s' := CreateBoard(s, users, name, description, visibility, theme, createdBy, freshId, now).value;
      var r := ReadBoard(s', users, freshId, viewer, later);
      && r.Ok?
      && |r.value.members| == 1
      && r.value.members[0].userId == createdBy && r.value.members[0].role == AdminRole
      && r.value.unseenCount == 0 && r.value.lastMessage.None?
      && r.value.polls == [] && r.value.pinnedMessages == []
  {
    var s' := CreateBoard(s, users, name, description, visibility, theme, createdBy, freshId, now).value;
    var b := s'[Canonical(freshId)];
    assert MembersValid(b.members.value);
    var r := ReadBoard(s', users, freshId, viewer, later);
    assert r.value.members[0] == Populate(b.members.value[0], users);
  }
}

=== FILE: messages.dfy ===
/** The message log of a board: an ordered sequence of messages that only
    ever grows at the end. Messages are addressed by identifier and updated in
    place; the store's positional update (`messages.$`) touches the FIRST
    message whose identifier matches, and nothing else. */
module Messages {
  import opened Base

  datatype Message = Message(
    id: string,
    senderId: string,
    senderName: string,                  // snapshot taken when the message is appended
    text: Option<string>,                // None is the tombstone (`text: null`)
    attachments: seq<string>,
    timestamp: Millis,
    deletedBy: Option<string>,
    deletedAt: Option<string>,
    reactions: map<string, seq<string>>, // reaction kind -> users; absent counts as {}
    pinnedBy: Option<string>,
    pinExpiry: Option<Millis>,
    seenBy: seq<string>)                 // absent counts as []

  const UnknownSender := "Unknown User"

  /** A message matches a lookup key when its identifier prints as that key.
      A store filter on `new ObjectId(param)` looks up `Canonical(param)`; a
      comparison `msg.messageId.toString() === param` looks up `param` itself. */
  predicate Matches(m: Message, key: string) {
    Canonical(m.id) == key
  }

  predicate Has(log: seq<Message>, key: string) {
    exists i :: 0 <= i < |log| && Matches(log[i], key)
  }

  /** Position of the first message that matches key. */
  function FirstIndex(log: seq<Message>, key: string): (r: Option<nat>)
    ensures r.None? <==> !Has(log, key)
    ensures r.Some? ==> r.value < |log| && Matches(log[r.value], key)
    ensures r.Some? ==> forall j :: 0 <= j < r.value ==> !Matches(log[j], key)
  {
    if |log| == 0 then None
    else if Matches(log[0], key) then Some(0)
    else
      match FirstIndex(log[1..], key)
      case None =>
        assert forall i :: 1 <= i < |log| ==> log[i] == log[1..][i - 1];
        None
      case Some(i) => Some(i + 1)
  }

  /** Two logs whose messages carry the same identifiers position by position. */
  predicate SameIds(a: seq<Message>, b: seq<Message>) {
    |a| == |b| && forall i :: 0 <= i < |a| ==> a[i].id == b[i].id
  }

  /** Lookup depends on nothing but the identifiers. */
  lemma SameIdsSameFirstIndex(a: seq<Message>, b: seq<Message>, key: string)
    requires SameIds(a, b)
    ensures FirstIndex(a, key) == FirstIndex(b, key)
  {
    var ra, rb := FirstIndex(a, key), FirstIndex(b, key);
    if ra.Some? {
      assert Matches(b[ra.value], key);
    }
  }

  /** b is a with at most position i replaced. */
  predicate ChangedOnlyAt(a: seq<Message>, b: seq<Message>, i: nat) {
    |a| == |b| && i < |a| && forall j :: 0 <= j < |a| && j != i ==> b[j] == a[j]
  }

  /** Logs without two messages that are the same object identifier. */
  predicate UniqueIds(log: seq<Message>) {
    forall i, j :: 0 <= i < j < |log| ==> Canonical(log[i].id) != Canonical(log[j].id)
  }

  /** With unique identifiers, looking up a message's own identifier finds it. */
  lemma FirstIndexOfOwnId(log: seq<Message>, k: nat)
    requires UniqueIds(log) && k < |log|
    ensures FirstIndex(log, Canonical(log[k].id)) == Some(k)
  {
    assert Matches(log[k], Canonical(log[k].id));
  }

  /** The positional update `$set: { "messages.$.<field>": ... }` on the first
      match; no match is the route's "Message not found". */
  function UpdateFirst(log: seq<Message>, key: string, f: Message -> Message): (r: Result<seq<Message>>)
    ensures r.Err? <==> !Has(log, key)
    ensures r.Err? ==> r.error == NotFound
    ensures r.Ok? ==> FirstIndex(log, key).Some?
    ensures r.Ok? ==> ChangedOnlyAt(log, r.value, FirstIndex(log, key).value)
    ensures r.Ok? ==> r.value[FirstIndex(log, key).value] == f(log[FirstIndex(log, key).value])
    ensures r.Ok? && (forall m :: f(m).id == m.id) ==> SameIds(log, r.value)
  {
    match FirstIndex(log, key)
    case None => Err(NotFound)
    case Some(i) => Ok(log[i := f(log[i])])
  }

  /** The append route's own validation: a well-formed sender identifier and
      a non-empty text. */
  predicate AppendArgsValid(senderId: string, text: string) {
    IsValidId(senderId) && text != ""
  }

  /** Append a new message at the end of the log. */
  function Append(log: seq<Message>, freshId: string, senderId: string, senderName: Option<string>,
                  text: string, attachments: Option<seq<string>>, now: Millis): (r: Result<seq<Message>>)
    ensures r.Err? <==> !IsValidId(senderId) || text == ""
    ensures r.Err? ==> r.error == InvalidArgument
    ensures r.Ok? ==> |r.value| == |log| + 1 && r.value[..|log|] == log
    ensures r.Ok? ==> var m := r.value[|log|];
      && m.id == freshId && m.senderId == senderId && m.text == Some(text) && m.timestamp == now
      && (Truthy(senderName) ==> m.senderName == senderName.value)
      && (!Truthy(senderName) ==> m.senderName == UnknownSender)
      && (attachments.Some? ==> m.attachments == attachments.value)
      && (attachments.None? ==> m.attachments == [])
      && m.deletedBy.None? && m.deletedAt.None? && m.reactions == map[]
      && m.pinnedBy.None? && m.pinExpiry.None? && m.seenBy == []
  {
    if !AppendArgsValid(senderId, text) then Err(InvalidArgument)
    else
      var m := Message(freshId, senderId, OrDefault(senderName, UnknownSender), Some(text),
                       attachments.GetOr([]), now, None, None, map[], None, None, []);
      Ok(log + [m])
  }

  /** A fresh identifier keeps the identifiers of the log unique. */
  lemma AppendKeepsIdsUnique(log: seq<Message>, freshId: string, senderId: string, senderName: Option<string>,
                             text: string, attachments: Option<seq<string>>, now: Millis)
    requires UniqueIds(log) && !Has(log, Canonical(freshId))
    requires AppendArgsValid(senderId, text)
    ensures UniqueIds(Append(log, freshId, senderId, senderName, text, attachments, now).value)
  {
    var r := Append(log, freshId, senderId, senderName, text, attachments, now).value;
    forall i, j | 0 <= i < j < |r|
      ensures Canonical(r[i].id) != Canonical(r[j].id)
    {
      if j == |log| {
        assert r[i] == log[i];
        assert !Matches(log[i], Canonical(freshId));
      } else {
        assert r[i] == log[i] && r[j] == log[j];
      }
    }
  }

  /** Overwrite the text of the matching message (`text` may be absent, which
      the store writes as null). */
  function Edit(log: seq<Message>, key: string, text: Option<string>): (r: Result<seq<Message>>)
    ensures r.Err? <==> !Has(log, key)
    ensures r.Err? ==> r.error == NotFound
    ensures r.Ok? ==> SameIds(log, r.value)
    ensures r.Ok? ==> var i := FirstIndex(log, key).value;
      && ChangedOnlyAt(log, r.value, i)
      && r.value[i].text == text
      && r.value[i].(text := log[i].text) == log[i]
  {
    UpdateFirst(log, key, (m: Message) => m.(text := text))
  }

  /** A second edit of the same message overwrites the first: the last text
      sent wins, and the first edit leaves no other trace. */
  lemma EditLastWins(log: seq<Message>, key: string, t1: Option<string>, t2: Option<string>)
    requires Has(log, key)
    ensures Edit(log, key, t1).Ok?
    ensures Edit(Edit(log, key, t1).value, key, t2) == Edit(log, key, t2)
  {
    var once := Edit(log, key, t1).value;
    SameIdsSameFirstIndex(log, once, key);
    var i := FirstIndex(log, key).value;
    var twice := Edit(once, key, t2).value;
    var direct := Edit(log, key, t2).value;
    assert once == log[i := log[i].(text := t1)];
    assert twice == once[i := once[i].(text := t2)];
    assert direct == log[i := log[i].(text := t2)];
    assert twice == direct;
  }

  /** Tombstone the matching message: text becomes null, deleter and time are
      recorded from the arguments. The message stays in its place. */
  function SoftDelete(log: seq<Message>, key: string, deletedBy: Option<string>, deletedAt: Option<string>): (r: Result<seq<Message>>)
    ensures r.Err? <==> !Has(log, key)
    ensures r.Err? ==> r.error == NotFound
    ensures r.Ok? ==> SameIds(log, r.value)
    ensures r.Ok? ==> var i := FirstIndex(log, key).value;
      && ChangedOnlyAt(log, r.value, i)
      && r.value[i].text.None? && r.value[i].deletedBy == deletedBy && r.value[i].deletedAt == deletedAt
      && r.value[i].(text := log[i].text, deletedBy := log[i].deletedBy, deletedAt := log[i].deletedAt) == log[i]
  {
    UpdateFirst(log, key, (m: Message) => m.(text := None, deletedBy := deletedBy, deletedAt := deletedAt))
  }

  /** A second delete overwrites the deleter and time of the first: the last
      call wins. */
  lemma SoftDeleteLastWins(log: seq<Message>, key: string, by1: Option<string>, at1: Option<string>,
                           by2: Option<string>, at2: Option<string>)
    requires Has(log, key)
    ensures SoftDelete(log, key, by1, at1).Ok?
    ensures SoftDelete(SoftDelete(log, key, by1, at1).value, key, by2, at2) == SoftDelete(log, key, by2, at2)
  {
    var once := SoftDelete(log, key, by1, at1).value;
    SameIdsSameFirstIndex(log, once, key);
    var i := FirstIndex(log, key).value;
    var twice := SoftDelete(once, key, by2, at2).value;
    var direct := SoftDelete(log, key, by2, at2).value;
    assert once == log[i := log[i].(text := None, deletedBy := by1, deletedAt := at1)];
    assert twice == once[i := once[i].(text := None, deletedBy := by2, deletedAt := at2)];
    assert direct == log[i := log[i].(text := None, deletedBy := by2, deletedAt := at2)];
    assert twice == direct;
  }

  /** Repeating the same delete changes nothing more. */
  lemma SoftDeleteIdempotent(log: seq<Message>, key: string, deleter: Option<string>, when: Option<string>)
    requires Has(log, key)
    ensures SoftDelete(log, key, deleter, when).Ok?
    ensures SoftDelete(SoftDelete(log, key, deleter, when).value, key, deleter, when) == SoftDelete(log, key, deleter, when)
  {
    SoftDeleteLastWins(log, key, deleter, when, deleter, when);
  }
}

=== FILE: pins.dfy ===
/** Pins: a message is pinned by a user until an expiry instant. Expired pins
    are never cleared; readers simply stop treating them as pins. */
module Pins {
  import opened Base
  import opened Messages

  /** A pin counts at `now` when it has a (truthy) pinner and an expiry
      strictly after `now`. A missing expiry never counts. */
  predicate IsValidPin(m: Message, now: Millis) {
    Truthy(m.pinnedBy) && m.pinExpiry.Some? && m.pinExpiry.value > now
  }

  /** The board read's filter of the log down to currently valid pins. */
  function ValidPins(log: seq<Message>, now: Millis): (r: seq<Message>)
    ensures |r| <= |log|
    ensures forall m :: m in r <==> m in log && IsValidPin(m, now)
  {
    if |log| == 0 then []
    else if IsValidPin(log[0], now) then [log[0]] + ValidPins(log[1..], now)
    else ValidPins(log[1..], now)
  }

  /** The `pinDuration` field of a pin request: missing (`undefined`),
      `null`, or a number of days. */
  datatype Duration = Missing | Null | Days(n: int)

  /** The largest magnitude of a JavaScript date's time value (8.64e15 ms,
      100,000,000 days either side of the epoch). A date moved beyond it
      becomes the invalid date. */
  const MaxTime: int := 8_640_000_000_000_000

  predicate InDateRange(t: Millis) {
    -MaxTime <= t <= MaxTime
  }

  /** The expiry the pin route computes from the current day plus the
      duration, or None when the result is the invalid date and printing it
      throws. `undefined` makes the sum NaN; `null` adds nothing, so the pin
      expires at once; a number moves the date by that many days. */
  function Expiry(now: Millis, d: Duration): (e: Option<Millis>)
    ensures d.Missing? ==> e.None?
    ensures d.Null? ==> (e.Some? <==> InDateRange(now)) && (e.Some? ==> e.value == now)
    ensures d.Days? ==> (e.Some? <==> InDateRange(now + d.n * DayMs)) && (e.Some? ==> e.value == now + d.n * DayMs)
  {
    match d
    case Missing => None
    case Null => if InDateRange(now) then Some(now) else None
    case Days(n) => if InDateRange(now + n * DayMs) then Some(now + n * DayMs) else None
  }

  /** The filter works message by message: filtering a concatenation is
      filtering each part and concatenating, so the valid pins keep their
      order and multiplicity in the log. With the single-message cases below
      this determines `ValidPins` completely. */
  lemma {:induction false} ValidPinsConcat(a: seq<Message>, b: seq<Message>, now: Millis)
    ensures ValidPins(a + b, now) == ValidPins(a, now) + ValidPins(b, now)
  {
    if |a| > 0 {
      var ab := a + b;
      assert ab[0] == a[0] && ab[1..] == a[1..] + b;
      ValidPinsConcat(a[1..], b, now);
    } else {
      assert a + b == b;
    }
  }

  /** A single message is kept exactly when its pin is valid. */
  lemma ValidPinsSingle(m: Message, now: Millis)
    ensures ValidPins([m], now) == if IsValidPin(m, now) then [m] else []
  {
    assert [m][1..] == [];
  }

  /** The pin route: the expiry is computed and printed first, so a missing
      duration or an expiry outside the date range throws before the message
      is even looked up. Any earlier pin is overwritten. */
  function Pin(log: seq<Message>, key: string, pinnedBy: Option<string>, duration: Duration, now: Millis): (r: Result<seq<Message>>)
    ensures Expiry(now, duration).None? ==> r == Err(Internal)
    ensures Expiry(now, duration).Some? ==> (r.Err? <==> !Has(log, key))
    ensures Expiry(now, duration).Some? && r.Err? ==> r.error == NotFound
    ensures r.Ok? ==> SameIds(log, r.value)
    ensures r.Ok? ==> var i := FirstIndex(log, key).value;
      && ChangedOnlyAt(log, r.value, i)
      && r.value[i].pinnedBy == pinnedBy
      && r.value[i].pinExpiry == Expiry(now, duration)
      && r.value[i].(pinnedBy := log[i].pinnedBy, pinExpiry := log[i].pinExpiry) == log[i]
  {
    match Expiry(now, duration)
    case None => Err(Internal)
    case Some(expiry) =>
      UpdateFirst(log, key, (m: Message) => m.(pinnedBy := pinnedBy, pinExpiry := Some(expiry)))
  }

  /** The unpin route: `$unset` of both pin fields on the matching message. */
  function Unpin(log: seq<Message>, key: string): (r: Result<seq<Message>>)
    ensures r.Err? <==> !Has(log, key)
    ensures r.Err? ==> r.error == NotFound
    ensures r.Ok? ==> SameIds(log, r.value)
    ensures r.Ok? ==> var i := FirstIndex(log, key).value;
      && ChangedOnlyAt(log, r.value, i)
      && r.value[i].pinnedBy.None? && r.value[i].pinExpiry.None?
      && r.value[i].(pinnedBy := log[i].pinnedBy, pinExpiry := log[i].pinExpiry) == log[i]
  {
    UpdateFirst(log, key, (m: Message) => m.(pinnedBy := None, pinExpiry := None))
  }

  /** A message just pinned by a named user for a positive number of days is
      among the valid pins at the pinning instant. */
  lemma PinnedMessageIsListed(log: seq<Message>, key: string, pinnedBy: Option<string>, days: int, now: Millis)
    requires Has(log, key) && Truthy(pinnedBy) && days > 0 && InDateRange(now + days * DayMs)
    ensures Pin(log, key, pinnedBy, Days(days), now).Ok?
    ensures var r := Pin(log, key, pinnedBy, Days(days), now).value;
      r[FirstIndex(log, key).value] in ValidPins(r, now)
  {
    var r := Pin(log, key, pinnedBy, Days(days), now).value;
    var i := FirstIndex(log, key).value;
    assert r[i] in r;
  }

  /** The same pin is no longer listed once the clock reaches its expiry,
      without any unpin. */
  lemma PinnedMessageExpires(log: seq<Message>, key: string, pinnedBy: Option<string>, days: int, now: Millis, later: Millis)
    requires Has(log, key) && InDateRange(now + days * DayMs) && later >= now + days * DayMs
    ensures Pin(log, key, pinnedBy, Days(days), now).Ok?
    ensures var r := Pin(log, key, pinnedBy, Days(days), now).value;
      r[FirstIndex(log, key).value] !in ValidPins(r, later)
  {
  }

  /** A `null` duration pins the message with an expiry of the pinning
      instant itself, so the pin is never listed, not even at that instant. */
  lemma NullDurationPinNeverListed(log: seq<Message>, key: string, pinnedBy: Option<string>, now: Millis, later: Millis)
    requires Has(log, key) && InDateRange(now) && later >= now
    ensures Pin(log, key, pinnedBy, Null, now).Ok?
    ensures var r := Pin(log, key, pinnedBy, Null, now).value;
      && r[FirstIndex(log, key).value].pinnedBy == pinnedBy
      && r[FirstIndex(log, key).value] !in ValidPins(r, later)
  {
  }

  /** Unpinning removes the message from the valid pins at every instant, and
      a second unpin changes nothing. */
  lemma UnpinUnlistsAndIsIdempotent(log: seq<Message>, key: string, now: Millis)
    requires Has(log, key)
    ensures Unpin(log, key).Ok?
    ensures var r := Unpin(log, key).value;
      && r[FirstIndex(log, key).value] !in ValidPins(r, now)
      && Unpin(r, key) == Unpin(log, key)
  {
    var r := Unpin(log, key).value;
    var i := FirstIndex(log, key).value;
    SameIdsSameFirstIndex(log, r, key);
    assert r == log[i := log[i].(pinnedBy := None, pinExpiry := None)];
    assert Unpin(r, key).value == r[i := r[i].(pinnedBy := None, pinExpiry := None)];
    assert Unpin(r, key).value == r;
  }
}

=== FILE: polls.dfy ===
/** Polls of a board: created at most once a day per creator, expired by a
    sweep when the poll list is read, voted on option by option, and removed
    by identifier. */
module Polls {
  import opened Base

  /** An option as the client sent it; nothing seeds `votes`, so an option
      may arrive without one. */
  datatype PollOption = PollOption(text: string, votes: Option<seq<string>>)

  datatype Poll = Poll(
    id: string,
    question: string,
    options: seq<PollOption>,
    createdBy: string,
    createdAt: Millis,
    expiresAt: Millis,
    isActive: bool)

  /** Some poll of the creator was created within the day before `now`
      (strictly after `now - 24h`). */
  predicate RecentPollBy(polls: seq<Poll>, creator: string, now: Millis) {
    exists i :: 0 <= i < |polls| && polls[i].createdBy == creator && polls[i].createdAt > now - DayMs
  }

  /** Create a poll: refused while the creator has a poll from the last 24
      hours, otherwise appended with a 24-hour lifetime and marked active. The
      options are stored exactly as given. */
  function Create(polls: seq<Poll>, freshId: string, question: string, options: seq<PollOption>,
                  creator: string, now: Millis): (r: Result<seq<Poll>>)
    ensures r.Err? <==> RecentPollBy(polls, creator, now)
    ensures r.Err? ==> r.error == RateLimited
    ensures r.Ok? ==> |r.value| == |polls| + 1 && r.value[..|polls|] == polls
    ensures r.Ok? ==> var p := r.value[|polls|];
      && p.id == freshId && p.question == question && p.options == options
      && p.createdBy == creator && p.createdAt == now && p.expiresAt == now + DayMs && p.isActive
  {
    if RecentPollBy(polls, creator, now) then Err(RateLimited)
    else Ok(polls + [Poll(freshId, question, options, creator, now, now + DayMs, true)])
  }

  /** After a successful creation at `now`, the same creator's next creation
      at `later` (not before `now`) is refused exactly while less than a day
      has passed. */
  lemma CreateRateLimitWindow(polls: seq<Poll>, id1: string, q1: string, o1: seq<PollOption>,
                              id2: string, q2: string, o2: seq<PollOption>,
                              creator: string, now: Millis, later: Millis)
    requires !RecentPollBy(polls, creator, now) && now <= later
    ensures Create(polls, id1, q1, o1, creator, now).Ok?
    ensures Create(Create(polls, id1, q1, o1, creator, now).value, id2, q2, o2, creator, later).Err?
        <==> later < now + DayMs
  {
    var after := Create(polls, id1, q1, o1, creator, now).value;
    assert after[|polls|].createdBy == creator;
    assert forall i :: 0 <= i < |polls| ==> after[i] == polls[i];
  }

  /** The read-triggered sweep: a poll whose expiry is not after `now` is
      marked inactive; nothing else changes, and no poll is reactivated. */
  function Sweep(polls: seq<Poll>, now: Millis): (r: seq<Poll>)
    ensures |r| == |polls|
    ensures forall i :: 0 <= i < |polls| ==>
      && r[i].isActive == (polls[i].isActive && polls[i].expiresAt > now)
      && r[i].(isActive := polls[i].isActive) == polls[i]
  {
    seq(|polls|, i requires 0 <= i < |polls| =>
      if polls[i].expiresAt <= now then polls[i].(isActive := false) else polls[i])
  }

  /** Sweeping twice at the same instant is sweeping once. */
  lemma SweepIdempotent(polls: seq<Poll>, now: Millis)
    ensures Sweep(Sweep(polls, now), now) == Sweep(polls, now)
  {
    SweepLaterSubsumes(polls, now, now);
  }

  /** A later sweep subsumes an earlier one. */
  lemma SweepLaterSubsumes(polls: seq<Poll>, earlier: Millis, later: Millis)
    requires earlier <= later
    ensures Sweep(Sweep(polls, earlier), later) == Sweep(polls, later)
  {
    var a := Sweep(Sweep(polls, earlier), later);
    var b := Sweep(polls, later);
    forall i | 0 <= i < |polls|
      ensures a[i] == b[i]
    {
      var s := Sweep(polls, earlier);
      assert a[i].(isActive := s[i].isActive) == s[i];
      assert s[i].(isActive := polls[i].isActive) == polls[i];
      assert b[i].(isActive := polls[i].isActive) == polls[i];
    }
  }

  predicate PollMatches(p: Poll, key: string) {
    Canonical(p.id) == key
  }

  predicate HasPoll(polls: seq<Poll>, key: string) {
    exists i :: 0 <= i < |polls| && PollMatches(polls[i], key)
  }

  /** Position of the first poll that matches key. */
  function FindPoll(polls: seq<Poll>, key: string): (r: Option<nat>)
    ensures r.None? <==> !HasPoll(polls, key)
    ensures r.Some? ==> r.value < |polls| && PollMatches(polls[r.value], key)
    ensures r.Some? ==> forall j :: 0 <= j < r.value ==> !PollMatches(polls[j], key)
  {
    if |polls| == 0 then None
    else if PollMatches(polls[0], key) then Some(0)
    else
      match FindPoll(polls[1..], key)
      case None =>
        assert forall i :: 1 <= i < |polls| ==> polls[i] == polls[1..][i - 1];
        None
      case Some(i) => Some(i + 1)
  }

  /** The votes of option `index` of poll `p`, when that option exists and
      carries a votes array. */
  predicate HasVotes(p: Poll, index: int) {
    0 <= index < |p.options| && p.options[index].votes.Some?
  }

  /** Vote for option `index` of the poll found by key. Only the chosen
      option's votes are checked for the user: a vote for another option of
      the same poll is accepted. A missing option, or an option without a votes
      array, makes the route throw. */
  function Vote(polls: seq<Poll>, key: string, user: string, index: int): (r: Result<seq<Poll>>)
    ensures !HasPoll(polls, key) ==> r == Err(NotFound)
    ensures HasPoll(polls, key) ==> var i := FindPoll(polls, key).value;
      && (!HasVotes(polls[i], index) ==> r == Err(Internal))
      && (HasVotes(polls[i], index) && user in polls[i].options[index].votes.value ==> r == Err(AlreadyVoted))
      && (HasVotes(polls[i], index) && user !in polls[i].options[index].votes.value ==>
            && r.Ok? && |r.value| == |polls|
            && (forall j :: 0 <= j < |polls| && j != i ==> r.value[j] == polls[j])
            && r.value[i].(options := polls[i].options) == polls[i]
            && |r.value[i].options| == |polls[i].options|
            && (forall o :: 0 <= o < |polls[i].options| && o != index ==>
                  r.value[i].options[o] == polls[i].options[o])
            && r.value[i].options[index].text == polls[i].options[index].text
            && r.value[i].options[index].votes == Some(polls[i].options[index].votes.value + [user]))
  {
    match FindPoll(polls, key)
    case None => Err(NotFound)
    case Some(i) =>
      var p := polls[i];
      if !HasVotes(p, index) then Err(Internal)
      else
        var votes := p.options[index].votes.value;
        if user in votes then Err(AlreadyVoted)
        else
          var option := p.options[index].(votes := Some(votes + [user]));
          Ok(polls[i := p.(options := p.options[index := option])])
  }

  /** Voting twice for the same option: the second vote is refused. */
  lemma VoteTwiceRefused(polls: seq<Poll>, key: string, user: string, index: int)
    requires Vote(polls, key, user, index).Ok?
    ensures Vote(Vote(polls, key, user, index).value, key, user, index) == Err(AlreadyVoted)
  {
    var r := Vote(polls, key, user, index).value;
    var i := FindPoll(polls, key).value;
    assert forall j :: 0 <= j < |r| ==> r[j].id == polls[j].id;
    assert FindPoll(r, key) == Some(i) by {
      assert PollMatches(r[i], key);
    }
  }

  /** Vote-once holds per option only: a user who voted for one option can
      still vote for a different option they are not yet listed under, and is
      then listed under both. */
  lemma VoteForAnotherOptionAccepted(polls: seq<Poll>, key: string, user: string, first: int, second: int)
    requires Vote(polls, key, user, first).Ok?
    requires first != second
    requires var p := polls[FindPoll(polls, key).value];
      HasVotes(p, second) && user !in p.options[second].votes.value
    ensures var r := Vote(Vote(polls, key, user, first).value, key, user, second);
      && r.Ok?
      && var p := r.value[FindPoll(polls, key).value];
         user in p.options[first].votes.value && user in p.options[second].votes.value
  {
    var r := Vote(polls, key, user, first).value;
    var i := FindPoll(polls, key).value;
    assert FindPoll(r, key) == Some(i) by {
      assert PollMatches(r[i], key);
    }
  }

  /** Polls left after `$pull` of every poll matching key, in their order. */
  function Remaining(polls: seq<Poll>, key: string): (r: seq<Poll>)
    ensures forall p :: p in r <==> p in polls && !PollMatches(p, key)
    ensures |r| <= |polls|
    ensures HasPoll(polls, key) ==> |r| < |polls|
    ensures !HasPoll(polls, key) ==> r == polls
  {
    if |polls| == 0 then []
    else
      assert forall i :: 1 <= i < |polls| ==> polls[i] == polls[1..][i - 1];
      if PollMatches(polls[0], key) then Remaining(polls[1..], key)
      else [polls[0]] + Remaining(polls[1..], key)
  }

  /** Every non-matching poll survives as often as it occurred; no matching
      poll survives. */
  lemma {:induction false} RemainingCounts(polls: seq<Poll>, key: string)
    ensures forall p :: multiset(Remaining(polls, key))[p] == if PollMatches(p, key) then 0 else multiset(polls)[p]
  {
    if |polls| > 0 {
      var rest := Remaining(polls[1..], key);
      RemainingCounts(polls[1..], key);
      assert polls == [polls[0]] + polls[1..];
      assert multiset(polls) == multiset{polls[0]} + multiset(polls[1..]);
      if PollMatches(polls[0], key) {
        assert Remaining(polls, key) == rest;
      } else {
        assert Remaining(polls, key) == [polls[0]] + rest;
        assert multiset(Remaining(polls, key)) == multiset{polls[0]} + multiset(rest);
      }
    }
  }

  /** `$pull` works poll by poll: pulling from two lists one after the other
      is pulling from each and concatenating, so the survivors keep their
      relative order. With the single-poll cases below this pins down
      `Remaining` completely. */
  lemma {:induction false} RemainingConcat(a: seq<Poll>, b: seq<Poll>, key: string)
    ensures Remaining(a + b, key) == Remaining(a, key) + Remaining(b, key)
  {
    if |a| > 0 {
      var ab := a + b;
      assert ab[0] == a[0] && ab[1..] == a[1..] + b;
      RemainingConcat(a[1..], b, key);
      if PollMatches(a[0], key) {
        assert Remaining(ab, key) == Remaining(ab[1..], key);
        assert Remaining(a, key) == Remaining(a[1..], key);
      } else {
        assert Remaining(ab, key) == [a[0]] + Remaining(ab[1..], key);
        assert Remaining(a, key) == [a[0]] + Remaining(a[1..], key);
      }
    } else {
      assert a + b == b;
    }
  }

  /** A single poll is kept exactly when it does not match. */
  lemma RemainingSingle(p: Poll, key: string)
    ensures Remaining([p], key) == if PollMatches(p, key) then [] else [p]
  {
    assert [p][1..] == [];
  }

  /** Remove every poll matching key; when nothing was removed the route
      reports the poll as not found. The survivors are the non-matching polls
      with their multiplicities and in their order. */
  function Remove(polls: seq<Poll>, key: string): (r: Result<seq<Poll>>)
    ensures r.Err? <==> !HasPoll(polls, key)
    ensures r.Err? ==> r.error == NotFound
    ensures r.Ok? ==> |r.value| < |polls| && !HasPoll(r.value, key)
    ensures r.Ok? ==> forall p :: multiset(r.value)[p] == if PollMatches(p, key) then 0 else multiset(polls)[p]
    ensures r.Ok? ==> r.value == Remaining(polls, key)
  {
    RemainingCounts(polls, key);
    if HasPoll(polls, key) then Ok(Remaining(polls, key)) else Err(NotFound)
  }

  /** Removing a freshly created poll by its identifier gives back the polls
      there were before it. */
  lemma {:induction false} RemoveUndoesCreate(polls: seq<Poll>, freshId: string, question: string,
                                              options: seq<PollOption>, creator: string, now: Millis)
    requires !HasPoll(polls, Canonical(freshId))
    requires !RecentPollBy(polls, creator, now)
    ensures Create(polls, freshId, question, options, creator, now).Ok?
    ensures Remove(Create(polls, freshId, question, options, creator, now).value, Canonical(freshId)) == Ok(polls)
  {
    var after := Create(polls, freshId, question, options, creator, now).value;
    var key := Canonical(freshId);
    assert PollMatches(after[|polls|], key);
    RemainingAfterAppend(polls, after[|polls|], key);
    assert after == polls + [after[|polls|]];
  }

  /** Pulling the matches from a log that ends in one matching poll drops it. */
  lemma {:induction false} RemainingAfterAppend(polls: seq<Poll>, p: Poll, key: string)
    requires !HasPoll(polls, key) && PollMatches(p, key)
    ensures Remaining(polls + [p], key) == polls
  {
    if |polls| == 0 {
      assert [p][1..] == [];
    } else {
      assert (polls + [p])[1..] == polls[1..] + [p];
      assert !HasPoll(polls[1..], key) by {
        assert forall i :: 1 <= i < |polls| ==> polls[i] == polls[1..][i - 1];
      }
      assert !PollMatches(polls[0], key);
      RemainingAfterAppend(polls[1..], p, key);
    }
  }
}

=== FILE: reactions.dfy ===
/** Reactions: per message, a map from reaction kind to the users who reacted
    with it, changed only by a toggle. */
module Reactions {
  import opened Base
  import opened Messages

  /** The users holding a reaction kind; a kind that was never used has none. */
  function Reactors(m: Message, kind: string): seq<string> {
    if kind in m.reactions then m.reactions[kind] else []
  }

  /** One toggle: a user already listed under the kind is pulled from it,
      otherwise added to it. Nothing but that kind's list changes. */
  function Toggle(m: Message, user: string, kind: string): (r: Message)
    ensures user in Reactors(r, kind) <==> user !in Reactors(m, kind)
    ensures forall v :: v != user ==> (v in Reactors(r, kind) <==> v in Reactors(m, kind))
    ensures kind in r.reactions
    ensures forall k :: k != kind ==> (k in r.reactions <==> k in m.reactions)
    ensures forall k :: k != kind && k in m.reactions ==> r.reactions[k] == m.reactions[k]
    ensures r.(reactions := m.reactions) == m
    ensures NoDups(Reactors(m, kind)) ==> NoDups(Reactors(r, kind))
  {
    var users := Reactors(m, kind);
    if user in users then m.(reactions := m.reactions[kind := Without(users, user)])
    else m.(reactions := m.reactions[kind := AddToSet(users, user)])
  }

  /** Toggling twice gives every user back the membership they had in that
      kind, and leaves every other kind alone. (The kind's list itself may
      differ: a kind toggled in and out for the first time stays as an empty
      list, and a user toggled out and back in moves to the end.) */
  lemma ToggleTwiceRestoresMembership(m: Message, user: string, kind: string)
    ensures var r := Toggle(Toggle(m, user, kind), user, kind);
      && (forall v :: v in Reactors(r, kind) <==> v in Reactors(m, kind))
      && (forall k :: k != kind ==> (k in r.reactions <==> k in m.reactions))
      && (forall k :: k != kind && k in m.reactions ==> r.reactions[k] == m.reactions[k])
      && r.(reactions := m.reactions) == m
  {
  }

  /** When the user had not reacted with the kind and the kind already had a
      list, toggling twice restores the message exactly. */
  lemma ToggleInAndOutIsIdentity(m: Message, user: string, kind: string)
    requires kind in m.reactions && user !in m.reactions[kind]
    ensures Toggle(Toggle(m, user, kind), user, kind) == m
  {
    PullUndoesAddToSet(m.reactions[kind], user);
    assert Toggle(Toggle(m, user, kind), user, kind).reactions == m.reactions;
  }

  /** The names every JavaScript object inherits from `Object.prototype`.
      Reading one of them from a reactions object yields a function or an
      object, neither of which has `includes`. */
  const InheritedNames: set<string> := {
    "constructor", "hasOwnProperty", "isPrototypeOf", "propertyIsEnumerable",
    "toLocaleString", "toString", "valueOf", "__proto__",
    "__defineGetter__", "__defineSetter__", "__lookupGetter__", "__lookupSetter__"}

  /** A reaction kind on which the route throws: an inherited name makes the
      membership test call a missing `includes`, and the empty kind gives an
      update path ending in an empty field name, which the store refuses. */
  predicate ThrowingKind(kind: string) {
    kind == "" || kind in InheritedNames
  }

  /** Reacting with an inherited name, "toString" say, to an existing
      message fails and changes nothing. */
  lemma InheritedKindThrows(log: seq<Message>, key: string, user: string)
    requires Has(log, key)
    ensures React(log, key, user, "toString") == Err(Internal)
  {
  }

  /** The react route's toggle applied to the matching message. The message
      is looked up first; a kind the route throws on fails only after that. */
  function React(log: seq<Message>, key: string, user: string, kind: string): (r: Result<seq<Message>>)
    ensures !Has(log, key) ==> r == Err(NotFound)
    ensures Has(log, key) && ThrowingKind(kind) ==> r == Err(Internal)
    ensures r.Ok? <==> Has(log, key) && !ThrowingKind(kind)
    ensures r.Ok? ==> SameIds(log, r.value)
    ensures r.Ok? ==> var i := FirstIndex(log, key).value;
      && ChangedOnlyAt(log, r.value, i)
      && (user in Reactors(r.value[i], kind) <==> user !in Reactors(log[i], kind))
      && r.value[i].(reactions := log[i].reactions) == log[i]
  {
    if !Has(log, key) then Err(NotFound)
    else if ThrowingKind(kind) then Err(Internal)
    else UpdateFirst(log, key, (m: Message) => Toggle(m, user, kind))
  }
}

=== FILE: rewards.dfy ===
/** The profile reward summary: points earned from completed tasks, and the
    badge list split into unlocked and locked badges. */
module Rewards {
  import opened Base

  /** A task; only the title of its column matters here. */
  datatype Task = Task(columnTittle: string)

  datatype Badge = Badge(name: string, pointsRequired: int)

  datatype Summary = Summary(
    points: int,
    completedCount: nat,
    currentBadge: Option<Badge>,
    nextBadge: Option<Badge>,
    progressToNext: int,
    badges: seq<Badge>)

  const DoneColumn := "done"
  const PointsPerTask := 10

  /** The column titles of the tasks, in order. */
  function Titles(tasks: seq<Task>): (r: seq<string>)
    ensures |r| == |tasks|
    ensures forall i :: 0 <= i < |tasks| ==> r[i] == tasks[i].columnTittle
  {
    seq(|tasks|, i requires 0 <= i < |tasks| => tasks[i].columnTittle)
  }

  /** Number of tasks in the "done" column: the multiplicity of "done"
      among the column titles. */
  function CompletedCount(tasks: seq<Task>): (r: nat)
    ensures r == multiset(Titles(tasks))[DoneColumn]
  {
    if |tasks| == 0 then 0
    else
      assert Titles(tasks) == [tasks[0].columnTittle] + Titles(tasks[1..]);
      (if tasks[0].columnTittle == DoneColumn then 1 else 0) + CompletedCount(tasks[1..])
  }

  predicate Unlocks(points: int, b: Badge) {
    points >= b.pointsRequired
  }

  /** The badges the points unlock (`unlocked` true) or do not (`unlocked`
      false), in their stored order. */
  function Split(badges: seq<Badge>, points: int, unlocked: bool): (r: seq<Badge>)
    ensures forall b :: b in r <==> b in badges && Unlocks(points, b) == unlocked
    ensures |r| <= |badges|
  {
    if |badges| == 0 then []
    else
      var n := |badges| - 1;
      assert badges == badges[..n] + [badges[n]];
      var rest := Split(badges[..n], points, unlocked);
      if Unlocks(points, badges[n]) == unlocked then rest + [badges[n]] else rest
  }

  /** Unlocked and locked badges partition the badge list. */
  lemma {:induction false} SplitPartitions(badges: seq<Badge>, points: int)
    ensures |Split(badges, points, true)| + |Split(badges, points, false)| == |badges|
    ensures forall b :: b in badges ==> (b in Split(badges, points, true) <==> b !in Split(badges, points, false))
  {
    if |badges| > 0 {
      SplitPartitions(badges[..|badges| - 1], points);
    }
  }

  /** Position of the last unlocked badge: the badge the last element of the
      unlocked list stands for. */
  function LastUnlockedIndex(badges: seq<Badge>, points: int): (i: nat)
    requires |Split(badges, points, true)| > 0
    ensures i < |badges| && Unlocks(points, badges[i])
    ensures forall j :: i < j < |badges| ==> !Unlocks(points, badges[j])
    ensures var u := Split(badges, points, true); u[|u| - 1] == badges[i]
  {
    var n := |badges| - 1;
    if Unlocks(points, badges[n]) then n
    else
      var i := LastUnlockedIndex(badges[..n], points);
      assert badges[i] == badges[..n][i];
      assert forall j :: i < j < n ==> badges[j] == badges[..n][j];
      i
  }

  /** Position of the first locked badge: the badge the first element of the
      locked list stands for. */
  function FirstLockedIndex(badges: seq<Badge>, points: int): (i: nat)
    requires |Split(badges, points, false)| > 0
    ensures i < |badges| && !Unlocks(points, badges[i])
    ensures forall j :: 0 <= j < i ==> Unlocks(points, badges[j])
    ensures Split(badges, points, false)[0] == badges[i]
  {
    var n := |badges| - 1;
    var rest := Split(badges[..n], points, false);
    assert forall j :: 0 <= j < n ==> badges[j] == badges[..n][j];
    if |rest| > 0 then
      var i := FirstLockedIndex(badges[..n], points);
      i
    else
      assert forall j :: 0 <= j < n ==> badges[j] in badges[..n];
      n
  }

  /** b is unlocked and no badge after it is. */
  predicate IsLastUnlocked(badges: seq<Badge>, points: int, b: Badge) {
    exists i :: 0 <= i < |badges| && badges[i] == b && Unlocks(points, badges[i])
      && forall j :: i < j < |badges| ==> !Unlocks(points, badges[j])
  }

  /** b is locked and every badge before it is unlocked. */
  predicate IsFirstLocked(badges: seq<Badge>, points: int, b: Badge) {
    exists i :: 0 <= i < |badges| && badges[i] == b && !Unlocks(points, badges[i])
      && forall j :: 0 <= j < i ==> Unlocks(points, badges[j])
  }

  /** The current badge: the last element of the unlocked list, if any. */
  function CurrentBadge(badges: seq<Badge>, points: int): (c: Option<Badge>)
    ensures c.None? <==> forall i :: 0 <= i < |badges| ==> !Unlocks(points, badges[i])
    ensures c.Some? ==> IsLastUnlocked(badges, points, c.value)
  {
    var unlocked := Split(badges, points, true);
    if |unlocked| > 0 then
      var i := LastUnlockedIndex(badges, points);
      Some(unlocked[|unlocked| - 1])
    else
      assert forall i :: 0 <= i < |badges| ==> badges[i] !in unlocked;
      None
  }

  /** The next badge: the first element of the locked list, if any. */
  function NextBadge(badges: seq<Badge>, points: int): (c: Option<Badge>)
    ensures c.None? <==> forall i :: 0 <= i < |badges| ==> Unlocks(points, badges[i])
    ensures c.Some? ==> IsFirstLocked(badges, points, c.value)
  {
    var locked := Split(badges, points, false);
    if |locked| > 0 then
      var i := FirstLockedIndex(badges, points);
      Some(locked[0])
    else
      assert forall i :: 0 <= i < |badges| ==> badges[i] !in locked;
      None
  }

  /** Percentage of the next badge's requirement reached, rounded down; 100
      when there is no next badge. */
  function Progress(points: int, next: Option<Badge>): (p: int)
    requires next.Some? ==> 0 <= points < next.value.pointsRequired
    ensures next.None? ==> p == 100
    ensures next.Some? ==> 0 <= p < 100
  {
    if next.Some? then
      var q := next.value.pointsRequired;
      assert points * 100 < q * 100;
      var p := (points * 100) / q;
      assert p * q <= points * 100;
      p
    else 100
  }

  /** The profile summary: ten points per completed task; the current badge
      is the last unlocked one and the next badge the first locked one, both
      in stored order; progress is 100 when nothing is left to unlock. */
  function Derive(tasks: seq<Task>, badges: seq<Badge>): (s: Summary)
    ensures s.completedCount == multiset(Titles(tasks))[DoneColumn]
    ensures s.points == PointsPerTask * s.completedCount
    ensures s.badges == badges
    ensures s.currentBadge.None? <==> forall i :: 0 <= i < |badges| ==> !Unlocks(s.points, badges[i])
    ensures s.currentBadge.Some? ==> IsLastUnlocked(badges, s.points, s.currentBadge.value)
    ensures s.nextBadge.None? <==> forall i :: 0 <= i < |badges| ==> Unlocks(s.points, badges[i])
    ensures s.nextBadge.Some? ==> IsFirstLocked(badges, s.points, s.nextBadge.value)
    ensures s.nextBadge.None? ==> s.progressToNext == 100
    ensures s.nextBadge.Some? ==> 0 <= s.progressToNext < 100
  {
    var count := CompletedCount(tasks);
    var points := PointsPerTask * count;
    var next := NextBadge(badges, points);
    assert next.Some? ==> 0 <= points < next.value.pointsRequired;
    Summary(points, count, CurrentBadge(badges, points), next, Progress(points, next), badges)
  }
}

=== FILE: routes.dfy ===
/** The message and poll routes of the board service, each as a function from
    the board store to the next board store. Every route first checks the
    identifiers it was given, then finds the board, then applies one change to
    one board's message log or poll list; no other board changes.

    Two kinds of lookup occur. A store filter on `new ObjectId(id)` finds the
    entry whose id is the same object id, i.e. compares canonical texts. A
    comparison `x._id.toString() === id` (the react and vote routes) compares
    an entry's printed id with the raw parameter, so an id written with
    upper-case hex digits finds nothing there. */
module Routes {
  import opened Base
  import opened Messages
  import opened Polls
  import opened Boards
  import Seen
  import Reactions
  import Pins

  /** s' is s with board k's message log replaced by log. */
  predicate MessagesBecome(s: Store, s': Store, k: string, log: seq<Message>) {
    OnlyBoardChanged(s, s', k) && s'[k] == s[k].(messages := Some(log))
  }

  /** s' is s with board k's poll list replaced by polls. */
  predicate PollsBecome(s: Store, s': Store, k: string, polls: seq<Poll>) {
    OnlyBoardChanged(s, s', k) && s'[k] == s[k].(polls := Some(polls))
  }

  function SetMessages(s: Store, k: string, log: seq<Message>): (s': Store)
    requires k in s
    ensures MessagesBecome(s, s', k, log)
  {
    s[k := s[k].(messages := Some(log))]
  }

  function SetPolls(s: Store, k: string, polls: seq<Poll>): (s': Store)
    requires k in s
    ensures PollsBecome(s, s', k, polls)
  {
    s[k := s[k].(polls := Some(polls))]
  }

  /** Append a message: board id, sender id and text are validated before the
      board is looked up. */
  function AppendMessage(s: Store, boardId: string, senderId: string, senderName: Option<string>, text: string,
                         attachments: Option<seq<string>>, freshId: string, now: Millis): (r: Result<Store>)
    ensures !IsValidId(boardId) || !AppendArgsValid(senderId, text) ==> r == Err(InvalidArgument)
    ensures IsValidId(boardId) && AppendArgsValid(senderId, text) ==>
      (r.Err? <==> Canonical(boardId) !in s) && (r.Err? ==> r.error == NotFound)
    ensures r.Ok? ==> var k := Canonical(boardId);
      MessagesBecome(s, r.value, k, Messages.Append(MessagesOf(s[k]), freshId, senderId, senderName, text, attachments, now).value)
  {
    if !IsValidId(boardId) || !AppendArgsValid(senderId, text) then Err(InvalidArgument)
    else if Canonical(boardId) !in s then Err(NotFound)
    else
      var k := Canonical(boardId);
      var log := Messages.Append(MessagesOf(s[k]), freshId, senderId, senderName, text, attachments, now);
      Ok(SetMessages(s, k, log.value))
  }

  /** Both route identifiers are well formed and the board holds a message
      that is the same object id as messageId. */
  predicate MessageFound(s: Store, boardId: string, messageId: string) {
    var k := Canonical(boardId);
    k in s && Has(MessagesOf(s[k]), Canonical(messageId))
  }

  /** Edit a message's text. A missing board and a missing message are the
      same "not found". */
  function EditMessage(s: Store, boardId: string, messageId: string, text: Option<string>): (r: Result<Store>)
    ensures !IsValidId(boardId) || !IsValidId(messageId) ==> r == Err(InvalidArgument)
    ensures IsValidId(boardId) && IsValidId(messageId) ==>
      (r.Err? <==> !MessageFound(s, boardId, messageId)) && (r.Err? ==> r.error == NotFound)
    ensures r.Ok? ==> var k := Canonical(boardId);
      MessagesBecome(s, r.value, k, Messages.Edit(MessagesOf(s[k]), Canonical(messageId), text).value)
  {
    if !IsValidId(boardId) || !IsValidId(messageId) then Err(InvalidArgument)
    else if !MessageFound(s, boardId, messageId) then Err(NotFound)
    else
      var k := Canonical(boardId);
      Ok(SetMessages(s, k, Messages.Edit(MessagesOf(s[k]), Canonical(messageId), text).value))
  }

  /** Soft-delete a message with the deleter and time the client sent. */
  function DeleteMessage(s: Store, boardId: string, messageId: string,
                         deletedBy: Option<string>, deletedAt: Option<string>): (r: Result<Store>)
    ensures !IsValidId(boardId) || !IsValidId(messageId) ==> r == Err(InvalidArgument)
    ensures IsValidId(boardId) && IsValidId(messageId) ==>
      (r.Err? <==> !MessageFound(s, boardId, messageId)) && (r.Err? ==> r.error == NotFound)
    ensures r.Ok? ==> var k := Canonical(boardId);
      && MessagesBecome(s, r.value, k, SoftDelete(MessagesOf(s[k]), Canonical(messageId), deletedBy, deletedAt).value)
      && |MessagesOf(r.value[k])| == |MessagesOf(s[k])|
  {
    if !IsValidId(boardId) || !IsValidId(messageId) then Err(InvalidArgument)
    else if !MessageFound(s, boardId, messageId) then Err(NotFound)
    else
      var k := Canonical(boardId);
      Ok(SetMessages(s, k, SoftDelete(MessagesOf(s[k]), Canonical(messageId), deletedBy, deletedAt).value))
  }

  /** Mark a message seen by a user; the user id must be well formed too. */
  function MarkSeen(s: Store, boardId: string, messageId: string, seenBy: string): (r: Result<Store>)
    ensures !IsValidId(boardId) || !IsValidId(messageId) || !IsValidId(seenBy) ==> r == Err(InvalidArgument)
    ensures IsValidId(boardId) && IsValidId(messageId) && IsValidId(seenBy) ==>
      (r.Err? <==> !MessageFound(s, boardId, messageId)) && (r.Err? ==> r.error == NotFound)
    ensures r.Ok? ==> var k := Canonical(boardId);
      MessagesBecome(s, r.value, k, Seen.MarkSeen(MessagesOf(s[k]), Canonical(messageId), seenBy).value)
  {
    if !IsValidId(boardId) || !IsValidId(messageId) || !IsValidId(seenBy) then Err(InvalidArgument)
    else if !MessageFound(s, boardId, messageId) then Err(NotFound)
    else
      var k := Canonical(boardId);
      Ok(SetMessages(s, k, Seen.MarkSeen(MessagesOf(s[k]), Canonical(messageId), seenBy).value))
  }

  /** Toggle a reaction. The board is read first: a board without a message
      array makes the lookup throw; the message is found by comparing printed
      ids with the raw parameter. User and kind are not validated, so a kind
      the toggle throws on answers Internal once the message is found. */
  function React(s: Store, boardId: string, messageId: string, user: string, kind: string): (r: Result<Store>)
    ensures !IsValidId(boardId) || !IsValidId(messageId) ==> r == Err(InvalidArgument)
    ensures IsValidId(boardId) && IsValidId(messageId) && Canonical(boardId) !in s ==> r == Err(NotFound)
    ensures IsValidId(boardId) && IsValidId(messageId) && Canonical(boardId) in s ==>
      var b := s[Canonical(boardId)];
      && (b.messages.None? ==> r == Err(Internal))
      && (b.messages.Some? && !Has(b.messages.value, messageId) ==> r == Err(NotFound))
      && (b.messages.Some? && Has(b.messages.value, messageId) && Reactions.ThrowingKind(kind) ==> r == Err(Internal))
      && (b.messages.Some? && Has(b.messages.value, messageId) && !Reactions.ThrowingKind(kind) ==> r.Ok?)
    ensures r.Ok? ==> var k := Canonical(boardId);
      MessagesBecome(s, r.value, k, Reactions.React(s[k].messages.value, messageId, user, kind).value)
  {
    if !IsValidId(boardId) || !IsValidId(messageId) then Err(InvalidArgument)
    else if Canonical(boardId) !in s then Err(NotFound)
    else
      var k := Canonical(boardId);
      match s[k].messages
      case None => Err(Internal)
      case Some(log) =>
        match Reactions.React(log, messageId, user, kind)
        case Err(e) => Err(e)
        case Ok(log') => Ok(SetMessages(s, k, log'))
  }

  /** Pin a message for a number of days. A duration that yields no valid
      expiry throws before the message is looked up. Pinner and duration are
      not validated. */
  function PinMessage(s: Store, boardId: string, messageId: string, pinnedBy: Option<string>,
                      duration: Pins.Duration, now: Millis): (r: Result<Store>)
    ensures !IsValidId(boardId) || !IsValidId(messageId) ==> r == Err(InvalidArgument)
    ensures IsValidId(boardId) && IsValidId(messageId) && Pins.Expiry(now, duration).None? ==> r == Err(Internal)
    ensures IsValidId(boardId) && IsValidId(messageId) && Pins.Expiry(now, duration).Some? ==>
      (r.Err? <==> !MessageFound(s, boardId, messageId)) && (r.Err? ==> r.error == NotFound)
    ensures r.Ok? ==> var k := Canonical(boardId);
      MessagesBecome(s, r.value, k, Pins.Pin(MessagesOf(s[k]), Canonical(messageId), pinnedBy, duration, now).value)
  {
    if !IsValidId(boardId) || !IsValidId(messageId) then Err(InvalidArgument)
    else if Pins.Expiry(now, duration).None? then Err(Internal)
    else if !MessageFound(s, boardId, messageId) then Err(NotFound)
    else
      var k := Canonical(boardId);
      Ok(SetMessages(s, k, Pins.Pin(MessagesOf(s[k]), Canonical(messageId), pinnedBy, duration, now).value))
  }

  /** Unpin a message. */
  function UnpinMessage(s: Store, boardId: string, messageId: string): (r: Result<Store>)
    ensures !IsValidId(boardId) || !IsValidId(messageId) ==> r == Err(InvalidArgument)
    ensures IsValidId(boardId) && IsValidId(messageId) ==>
      (r.Err? <==> !MessageFound(s, boardId, messageId)) && (r.Err? ==> r.error == NotFound)
    ensures r.Ok? ==> var k := Canonical(boardId);
      MessagesBecome(s, r.value, k, Pins.Unpin(MessagesOf(s[k]), Canonical(messageId)).value)
  {
    if !IsValidId(boardId) || !IsValidId(messageId) then Err(InvalidArgument)
    else if !MessageFound(s, boardId, messageId) then Err(NotFound)
    else
      var k := Canonical(boardId);
      Ok(SetMessages(s, k, Pins.Unpin(MessagesOf(s[k]), Canonical(messageId)).value))
  }

  /** Create a poll. A board without polls counts as having none. Question,
      options and creator are not validated. */
  function CreatePoll(s: Store, boardId: string, question: string, options: seq<PollOption>,
                      createdBy: string, freshId: string, now: Millis): (r: Result<Store>)
    ensures !IsValidId(boardId) ==> r == Err(InvalidArgument)
    ensures IsValidId(boardId) && Canonical(boardId) !in s ==> r == Err(NotFound)
    ensures IsValidId(boardId) && Canonical(boardId) in s ==>
      (r.Err? <==> RecentPollBy(PollsOf(s[Canonical(boardId)]), createdBy, now))
      && (r.Err? ==> r.error == RateLimited)
    ensures r.Ok? ==> var k := Canonical(boardId);
      PollsBecome(s, r.value, k, Polls.Create(PollsOf(s[k]), freshId, question, options, createdBy, now).value)
  {
    if !IsValidId(boardId) then Err(InvalidArgument)
    else if Canonical(boardId) !in s then Err(NotFound)
    else
      var k := Canonical(boardId);
      match Polls.Create(PollsOf(s[k]), freshId, question, options, createdBy, now)
      case Err(e) => Err(e)
      case Ok(polls) => Ok(SetPolls(s, k, polls))
  }

  /** List polls: expired polls are marked inactive and the whole list is
      written back; the answer is the new list. A board without polls makes
      the sweep throw. */
  function ListPolls(s: Store, boardId: string, now: Millis): (r: Result<Store>)
    ensures !IsValidId(boardId) ==> r == Err(InvalidArgument)
    ensures IsValidId(boardId) && Canonical(boardId) !in s ==> r == Err(NotFound)
    ensures IsValidId(boardId) && Canonical(boardId) in s ==>
      (r.Err? <==> s[Canonical(boardId)].polls.None?) && (r.Err? ==> r.error == Internal)
    ensures r.Ok? ==> var k := Canonical(boardId);
      PollsBecome(s, r.value, k, Sweep(s[k].polls.value, now))
  {
    if !IsValidId(boardId) then Err(InvalidArgument)
    else if Canonical(boardId) !in s then Err(NotFound)
    else
      var k := Canonical(boardId);
      match s[k].polls
      case None => Err(Internal)
      case Some(polls) => Ok(SetPolls(s, k, Sweep(polls, now)))
  }

  /** Vote for an option. The poll is found by comparing printed ids with the
      raw parameter; a board without polls makes the lookup throw. */
  function Vote(s: Store, boardId: string, pollId: string, user: string, index: int): (r: Result<Store>)
    ensures !IsValidId(boardId) || !IsValidId(pollId) ==> r == Err(InvalidArgument)
    ensures IsValidId(boardId) && IsValidId(pollId) && Canonical(boardId) !in s ==> r == Err(NotFound)
    ensures IsValidId(boardId) && IsValidId(pollId) && Canonical(boardId) in s ==>
      var b := s[Canonical(boardId)];
      && (b.polls.None? ==> r == Err(Internal))
      && (b.polls.Some? ==> match Polls.Vote(b.polls.value, pollId, user, index)
                             case Err(e) => r == Err(e)
                             case Ok(polls) => r.Ok? && PollsBecome(s, r.value, Canonical(boardId), polls))
  {
    if !IsValidId(boardId) || !IsValidId(pollId) then Err(InvalidArgument)
    else if Canonical(boardId) !in s then Err(NotFound)
    else
      var k := Canonical(boardId);
      match s[k].polls
      case None => Err(Internal)
      case Some(polls) =>
        match Polls.Vote(polls, pollId, user, index)
        case Err(e) => Err(e)
        case Ok(polls') => Ok(SetPolls(s, k, polls'))
  }

  /** Remove a poll. A missing board, a board without polls and a board
      without that poll all modify nothing, which the route reports as the
      poll not being found. */
  function RemovePoll(s: Store, boardId: string, pollId: string): (r: Result<Store>)
    ensures !IsValidId(boardId) || !IsValidId(pollId) ==> r == Err(InvalidArgument)
    ensures IsValidId(boardId) && IsValidId(pollId) ==>
      (r.Err? <==> Canonical(boardId) !in s || !HasPoll(PollsOf(s[Canonical(boardId)]), Canonical(pollId)))
      && (r.Err? ==> r.error == NotFound)
    ensures r.Ok? ==> var k := Canonical(boardId);
      PollsBecome(s, r.value, k, Polls.Remove(PollsOf(s[k]), Canonical(pollId)).value)
  {
    if !IsValidId(boardId) || !IsValidId(pollId) then Err(InvalidArgument)
    else if Canonical(boardId) !in s then Err(NotFound)
    else
      var k := Canonical(boardId);
      match Polls.Remove(PollsOf(s[k]), Canonical(pollId))
      case Err(e) => Err(e)
      case Ok(polls) => Ok(SetPolls(s, k, polls))
  }
}

=== FILE: scenario.dfy ===
/** The end-to-end message scenario: append, edit, react, un-react, pin and
    mark seen, one after another on a fresh log. */
module Scenario {
  import opened Base
  import opened Messages
  import Seen
  import Reactions
  import Pins

  /** The reaction kind the scenario toggles. */
  const Kind := "like"

  method EndToEnd(sender: string, messageId: string, reactor: string, pinner: string, viewer: string,
                  now: Millis) returns (log: seq<Message>)
    requires IsValidId(sender) && IsValidId(messageId) && pinner != ""
    requires Pins.InDateRange(now + 2 * DayMs)
    ensures |log| == 1
    ensures log[0].id == messageId && log[0].senderId == sender && log[0].senderName == UnknownSender
    ensures log[0].text == Some("hello world")
    ensures Reactions.Reactors(log[0], Kind) == [] && log[0].reactions == map[Kind := []]
    ensures log[0].pinnedBy == Some(pinner) && log[0].pinExpiry == Some(now + 2 * DayMs)
    ensures log[0].seenBy == [viewer]
    ensures Pins.ValidPins(log, now) == log
    ensures Seen.UnseenCount(log, viewer) == 0
  {
    var key := Canonical(messageId);
    var appended := Messages.Append([], messageId, sender, None, "hello", None, now);
    log := appended.value;
    assert Matches(log[0], key);
    log := Edit(log, key, Some("hello world")).value;
    assert Matches(log[0], key);
    log := Reactions.React(log, key, reactor, Kind).value;
    assert Matches(log[0], key);
    log := Reactions.React(log, key, reactor, Kind).value;
    assert Matches(log[0], key);
    log := Pins.Pin(log, key, Some(pinner), Pins.Days(2), now).value;
    assert Matches(log[0], key);
    log := Seen.MarkSeen(log, key, viewer).value;
    assert Pins.IsValidPin(log[0], now);
    assert Pins.ValidPins(log, now) == [log[0]] + Pins.ValidPins(log[1..], now);
  }
}

=== FILE: seen.dfy ===
/** Seen tracking: each message carries the users who have seen it, and a
    board read reports how many messages a viewer has not seen. */
module Seen {
  import opened Base
  import opened Messages

  /** `$addToSet` of the user on the matching message's `seenBy`. */
  function MarkSeen(log: seq<Message>, key: string, user: string): (r: Result<seq<Message>>)
    ensures r.Err? <==> !Has(log, key)
    ensures r.Err? ==> r.error == NotFound
    ensures r.Ok? ==> SameIds(log, r.value)
    ensures r.Ok? ==> var i := FirstIndex(log, key).value;
      && ChangedOnlyAt(log, r.value, i)
      && (forall u :: u in r.value[i].seenBy <==> u in log[i].seenBy || u == user)
      && (NoDups(log[i].seenBy) ==> NoDups(r.value[i].seenBy))
      && r.value[i].(seenBy := log[i].seenBy) == log[i]
  {
    UpdateFirst(log, key, (m: Message) => m.(seenBy := AddToSet(m.seenBy, user)))
  }

  /** Marking the same message seen by the same user twice is marking it once. */
  lemma MarkSeenIdempotent(log: seq<Message>, key: string, user: string)
    requires Has(log, key)
    ensures MarkSeen(log, key, user).Ok?
    ensures MarkSeen(MarkSeen(log, key, user).value, key, user) == MarkSeen(log, key, user)
  {
    var once := MarkSeen(log, key, user).value;
    SameIdsSameFirstIndex(log, once, key);
    var i := FirstIndex(log, key).value;
    assert once == log[i := log[i].(seenBy := AddToSet(log[i].seenBy, user))];
    assert user in once[i].seenBy;
    var twice := MarkSeen(once, key, user).value;
    assert twice == once[i := once[i].(seenBy := AddToSet(once[i].seenBy, user))];
    assert twice == once;
  }

  /** 1 when the viewer is not among the message's `seenBy`, else 0. */
  function UnseenBit(m: Message, viewer: string): nat {
    if viewer in m.seenBy then 0 else 1
  }

  /** The number of messages whose `seenBy` does not contain the viewer;
      tombstoned messages count like any other. */
  function UnseenCount(log: seq<Message>, viewer: string): (r: nat)
    ensures r <= |log|
    ensures r == 0 <==> forall i :: 0 <= i < |log| ==> viewer in log[i].seenBy
    ensures r == |log| <==> forall i :: 0 <= i < |log| ==> viewer !in log[i].seenBy
  {
    if |log| == 0 then 0
    else
      var n := |log| - 1;
      assert forall i :: 0 <= i < n ==> log[..n][i] == log[i];
      UnseenCount(log[..n], viewer) + UnseenBit(log[n], viewer)
  }

  /** Positions of the messages the viewer has not seen. */
  function UnseenPositions(log: seq<Message>, viewer: string): set<nat> {
    set i: nat | i < |log| && viewer !in log[i].seenBy
  }

  /** The unseen positions of a log are those of its prefix without the last
      message, plus the last position when that message is unseen. */
  lemma UnseenPositionsOfLast(log: seq<Message>, viewer: string)
    requires |log| > 0
    ensures var n := |log| - 1;
      UnseenPositions(log, viewer)
        == UnseenPositions(log[..n], viewer) + (if viewer in log[n].seenBy then {} else {n})
  {
    var n := |log| - 1;
    var before := UnseenPositions(log[..n], viewer);
    var last: set<nat> := if viewer in log[n].seenBy then {} else {n};
    forall i: nat | i in UnseenPositions(log, viewer)
      ensures i in before + last
    {
      if i < n {
        assert log[..n][i] == log[i];
      }
    }
    forall i: nat | i in before + last
      ensures i in UnseenPositions(log, viewer)
    {
      if i in before {
        assert log[..n][i] == log[i];
      }
    }
  }

  /** The count is the number of unseen positions. */
  lemma {:induction false} UnseenCountIsCardinality(log: seq<Message>, viewer: string)
    ensures UnseenCount(log, viewer) == |UnseenPositions(log, viewer)|
  {
    if |log| == 0 {
      assert UnseenPositions(log, viewer) == {};
    } else {
      var n := |log| - 1;
      UnseenCountIsCardinality(log[..n], viewer);
      UnseenPositionsOfLast(log, viewer);
      var before := UnseenPositions(log[..n], viewer);
      assert n !in before;
      if viewer !in log[n].seenBy {
        assert |before + {n}| == |before| + 1;
      }
    }
  }

  /** Replacing one message changes the count by that message's difference. */
  lemma {:induction false} UnseenCountAfterUpdate(log: seq<Message>, i: nat, m: Message, viewer: string)
    requires i < |log|
    ensures UnseenCount(log[i := m], viewer) + UnseenBit(log[i], viewer)
         == UnseenCount(log, viewer) + UnseenBit(m, viewer)
  {
    var n := |log| - 1;
    var log' := log[i := m];
    if i == n {
      assert log'[..n] == log[..n];
    } else {
      assert log'[..n] == log[..n][i := m];
      UnseenCountAfterUpdate(log[..n], i, m, viewer);
    }
  }

  /** Marking a message seen lowers the marking user's count by one exactly when
      that user had not seen it, and leaves every other viewer's count alone. */
  lemma MarkSeenUnseenCount(log: seq<Message>, key: string, user: string, viewer: string)
    requires Has(log, key)
    ensures MarkSeen(log, key, user).Ok?
    ensures var i := FirstIndex(log, key).value;
      UnseenCount(MarkSeen(log, key, user).value, viewer)
        == if viewer == user && viewer !in log[i].seenBy
           then UnseenCount(log, viewer) - 1
           else UnseenCount(log, viewer)
  {
    var i := FirstIndex(log, key).value;
    var r := MarkSeen(log, key, user).value;
    assert r == log[i := r[i]];
    UnseenCountAfterUpdate(log, i, r[i], viewer);
  }

  /** Marks every message of a log seen by one user, one message at a time,
      the way a client calling the seen route for each message would. */
  method MarkEverySeen(log: seq<Message>, user: string) returns (r: seq<Message>)
    requires UniqueIds(log)
    ensures SameIds(log, r)
    ensures UnseenCount(r, user) == 0
    ensures forall j :: 0 <= j < |log| ==> r[j].(seenBy := log[j].seenBy) == log[j]
  {
    r := log;
    var k := 0;
    while k < |log|
      invariant 0 <= k <= |log|
      invariant SameIds(log, r) && UniqueIds(r)
      invariant forall j :: 0 <= j < k ==> user in r[j].seenBy
      invariant forall j :: 0 <= j < |log| ==> r[j].(seenBy := log[j].seenBy) == log[j]
    {
      FirstIndexOfOwnId(r, k);
      var next := MarkSeen(r, Canonical(r[k].id), user);
      r := next.value;
      k := k + 1;
    }
  }
}

=== FILE: workflows.dfy ===
/** Properties that relate several routes: what a board read shows after a
    mutation, and route pairs that undo or repeat each other. */
module Workflows {
  import opened Base
  import opened Messages
  import opened Polls
  import opened Boards
  import Seen
  import Pins
  import Routes

  /** A board read after an append shows the new message as the last one,
      and every viewer has exactly one more unseen message. */
  lemma AppendThenRead(s: Store, users: Users, boardId: string, senderId: string, senderName: Option<string>,
                       text: string, attachments: Option<seq<string>>, freshId: string, now: Millis,
                       viewer: string, readAt: Millis)
    requires Routes.AppendMessage(s, boardId, senderId, senderName, text, attachments, freshId, now).Ok?
    requires ReadBoard(s, users, boardId, viewer, readAt).Ok?
    ensures var s' := Routes.AppendMessage(s, boardId, senderId, senderName, text, attachments, freshId, now).value;
      var before := ReadBoard(s, users, boardId, viewer, readAt).value;
      var after := ReadBoard(s', users, boardId, viewer, readAt);
      && after.Ok?
      && after.value.lastMessage.Some?
      && after.value.lastMessage.value.id == freshId
      && after.value.lastMessage.value.text == Some(text)
      && after.value.unseenCount == before.unseenCount + 1
  {
    var k := Canonical(boardId);
    var s' := Routes.AppendMessage(s, boardId, senderId, senderName, text, attachments, freshId, now).value;
    var log := MessagesOf(s[k]);
    var log' := MessagesOf(s'[k]);
    assert s'[k].members == s[k].members;
    assert |log'| == |log| + 1 && log'[..|log|] == log;
    assert Seen.UnseenCount(log', viewer) == Seen.UnseenCount(log, viewer) + Seen.UnseenBit(log'[|log|], viewer);
  }

  /** A message pinned for a positive number of days by a named user is among
      the pinned messages of a board read at the pinning instant, and is gone
      from a read at or after its expiry, with no unpin in between. */
  lemma PinThenRead(s: Store, users: Users, boardId: string, messageId: string, pinnedBy: Option<string>,
                    days: int, now: Millis, later: Millis, viewer: string)
    requires Routes.PinMessage(s, boardId, messageId, pinnedBy, Pins.Days(days), now).Ok?
    requires ReadBoard(s, users, boardId, viewer, now).Ok?
    requires Truthy(pinnedBy) && days > 0 && later >= now + days * DayMs
    ensures var s' := Routes.PinMessage(s, boardId, messageId, pinnedBy, Pins.Days(days), now).value;
      var log' := MessagesOf(s'[Canonical(boardId)]);
      var i := FirstIndex(MessagesOf(s[Canonical(boardId)]), Canonical(messageId)).value;
      && ReadBoard(s', users, boardId, viewer, now).Ok?
      && log'[i] in ReadBoard(s', users, boardId, viewer, now).value.pinnedMessages
      && log'[i] !in ReadBoard(s', users, boardId, viewer, later).value.pinnedMessages
  {
    var k := Canonical(boardId);
    var s' := Routes.PinMessage(s, boardId, messageId, pinnedBy, Pins.Days(days), now).value;
    assert s'[k].members == s[k].members;
    Pins.PinnedMessageIsListed(MessagesOf(s[k]), Canonical(messageId), pinnedBy, days, now);
  }

  /** Listing the polls twice at the same instant writes the same list as
      listing once. */
  lemma ListPollsIdempotent(s: Store, boardId: string, now: Millis)
    requires Routes.ListPolls(s, boardId, now).Ok?
    ensures Routes.ListPolls(Routes.ListPolls(s, boardId, now).value, boardId, now)
         == Routes.ListPolls(s, boardId, now)
  {
    var k := Canonical(boardId);
    var s' := Routes.ListPolls(s, boardId, now).value;
    SweepIdempotent(s[k].polls.value, now);
    assert s'[k] == s[k].(polls := Some(Sweep(s[k].polls.value, now)));
    assert Routes.ListPolls(s', boardId, now).value == s';
  }

  /** Removing a poll right after creating it under a fresh id leaves the
      board's polls as they were (an absent list comes back empty). */
  lemma CreatePollThenRemove(s: Store, boardId: string, question: string, options: seq<PollOption>,
                             createdBy: string, freshId: string, now: Millis)
    requires IsValidId(freshId)
    requires Routes.CreatePoll(s, boardId, question, options, createdBy, freshId, now).Ok?
    requires !HasPoll(PollsOf(s[Canonical(boardId)]), Canonical(freshId))
    ensures var s' := Routes.CreatePoll(s, boardId, question, options, createdBy, freshId, now).value;
      var s'' := Routes.RemovePoll(s', boardId, freshId);
      && s''.Ok?
      && s''.value[Canonical(boardId)] == s[Canonical(boardId)].(polls := Some(PollsOf(s[Canonical(boardId)])))
  {
    var k := Canonical(boardId);
    var polls := PollsOf(s[k]);
    var s' := Routes.CreatePoll(s, boardId, question, options, createdBy, freshId, now).value;
    RemoveUndoesCreate(polls, freshId, question, options, createdBy, now);
    CanonicalIdempotent(freshId);
    assert PollsOf(s'[k]) == Polls.Create(polls, freshId, question, options, createdBy, now).value;
    assert PollMatches(PollsOf(s'[k])[|polls|], Canonical(freshId));
  }
}
